=== FILE: README.md ===
# GPU compute resource layer — a Dafny model

This project models the resource layer of a small Qt/OpenGL 4.5 GPU-compute
library and proves properties of that model. The layer has these parts:

- **Buffer objects.** `GLBufferObject` and its `SSBO`/`UBO` kinds are owned or
  external handles on GL buffer names.
- **`ResourceManager`.** It holds three name-keyed registries: shaders, storage
  buffers and uniform buffers.
- **`ComputePipeline`.** It builds a program from a registered shader and binds
  every registered buffer the program declares. It dispatches built programs
  and sets their uniforms.
- **`ComputeShaderPipeline`.** It is an ordered list of shaders that are loaded
  and run in sequence, stopping at the first failure.
- **The prefix-sum demo's arithmetic.** This is the CPU reference scan and the
  work-group count.

The GPU is replaced by an abstract GL context, `GLModel.GL`. It records:

- buffer names and their bytes, with a byte GL leaves undefined marked `None`;
- the indexed binding points of both targets;
- what introspection reports for every linked program (block bindings and
  uniform locations);
- uniform values;
- a log of dispatch and barrier commands.

Every GL call the source makes is a pure transition on this record. Other
external pieces are parameters:

- compiling, linking and reflecting a shader is an oracle (`ComputePipeline.Backend`)
  applied to the shader's text;
- reading a shader file is a function from path to text;
- loading or dispatching one pipeline stage is an oracle returning success or
  failure.

`std::map<std::string, V>` is modelled as a sorted association list,
`OrderedMap.OrdMap`. Its range-for order, ascending `std::string` order, is
therefore explicit. This matters for `Build`: when two registered buffers
declare the same binding index, the one with the greater name is bound last
and stays bound.

Two behaviours of the code are worth stating up front:

- **A failed rebuild.** The program map is written only after a successful
  link (computepipeline.cpp:66). A failed rebuild therefore keeps any
  program built earlier under that name, and `Dispatch` still runs it.
  `ComputePipeline.FailedRebuildKeepsProgram` states this.
- **`UploadData` outside the store.** A range that does not fit the store is
  the GL error `GL_INVALID_VALUE`, which changes nothing, so the model leaves
  the context unchanged.

## Model

| member | source | states |
|---|---|---|
| `BufferObject.Construct` | GLBufferObject.cpp:4-9 | An owning object gets a non-zero GL name that no existing buffer has, with an empty store, and no other buffer or binding changes; a non-owning one keeps id 0 and touches no GL state |
| `BufferObject.Adopt` | GLBufferObject.cpp:11-14 | The external-name constructor wraps exactly `existingId` with the given target and name and never owns it |
| `BufferObject.Destroy` | GLBufferObject.cpp:16-21 | Only an owned buffer with a non-zero id is freed: its name disappears, every binding point that held it reverts to 0, and no other buffer changes; otherwise nothing happens |
| `BufferObject.Create` | GLBufferObject.cpp:23-29 | On an external buffer nothing changes; on an owned live buffer the store becomes exactly `size` bytes, copied from `data` or undefined when there is none; other buffers and all non-buffer state are untouched |
| `BufferObject.UploadData` | GLBufferObject.cpp:31-33 | Owned or not, bytes in `[offset, offset+size)` become the data and every other byte keeps its value; a range outside the store changes nothing |
| `BufferObject.Resize` | GLBufferObject.cpp:36-43 | External buffers are untouched; an owned buffer's store is replaced wholesale, so with no data every byte is undefined and no earlier content survives |
| `BufferObject.BindToIndex` | GLBufferObject.cpp:45-47 | The binding point `(target, index)` holds the buffer's id and every other binding point, buffer, program and uniform is unchanged |
| `BufferObject.NewSSBO` | SSBO.h:8-9 | `SSBO(name)` is owned, carries its name, and holds a fresh non-zero GL name with an empty store |
| `BufferObject.ExternalSSBO` | SSBO.h:11-12 | `SSBO(name, externalId)` is not owned and wraps exactly `externalId` |
| `BufferObject.NewUBO` | SSBO.h:16-19 | `UBO(size)` is owned, is named "UBO", and already has a store of `size` undefined bytes under a fresh GL name |
| `BufferObject.ExternalUBO` | SSBO.h:21-22 | `UBO(externalId)` is not owned, wraps `externalId`, and is named "UBO" |
| `BufferObject.ExternalBufferInert` | GLBufferObject.cpp:23-43 | On a wrapped external name, `Create`, `Resize` and destruction change no GL state, while `UploadData` writes exactly as it would on an owned buffer with the same name |
| `BufferObject.UploadRoundTrip` | GLBufferObject.cpp:23-33 | Creating a store of `size` bytes and uploading `size` bytes at offset 0 makes the store read back exactly the uploaded bytes |
| `ResourceManager.LoadShader` | ComputeShader.h:11-21 | A shader keeps the path it was constructed with and holds the whole file's text, or no text when the file cannot be opened |
| `ResourceManager.NewRegistry` | csresourcemanager.h:14 | A freshly constructed manager answers every shader, storage-buffer and uniform-buffer lookup with null |
| `ResourceManager.LoadShaders` | csresourcemanager.cpp:3-9 | Every listed name maps to the shader read from its path, overwriting earlier entries; unlisted names and the two buffer registries are unchanged |
| `ResourceManager.MakeSSBO` | csresourcemanager.cpp:13-14 | A new SSBO is owned, carries the name, and holds `size` undefined bytes under a GL name not in use before; other buffers are unchanged |
| `ResourceManager.CreateSSBOs` | csresourcemanager.cpp:11-18 | Only the storage registry changes, and no binding, program or uniform changes. The model frees no GL buffer when an entry is overwritten, so every buffer that existed keeps its name and bytes (see Left out) |
| `ResourceManager.CreateSSBOsCorrect` | csresourcemanager.cpp:11-18 | Afterwards every listed name holds a fresh owned SSBO carrying that name with `size` undefined bytes, distinct names hold distinct GL names, and unlisted names keep their entries |
| `ResourceManager.AddExternalSSBOs` | csresourcemanager.cpp:20-28 | Every listed name maps to a non-owning storage buffer wrapping the given GL name; unlisted names and the other registries are unchanged |
| `ResourceManager.CreateUBOs` | csresourcemanager.cpp:30-36 | Only the uniform registry changes. The model frees no GL buffer when an entry is overwritten, so every buffer that existed keeps its name and bytes (see Left out) |
| `ResourceManager.CreateUBOsCorrect` | csresourcemanager.cpp:30-36 | Afterwards every listed name holds a fresh owned UBO named "UBO" with `size` undefined bytes, distinct names hold distinct GL names, and unlisted names keep their entries |
| `ResourceManager.GetShader` | csresourcemanager.cpp:37-44 | The result is null exactly when the name is absent, and otherwise the shader stored under it |
| `ResourceManager.GetSSBO` | csresourcemanager.cpp:46-53 | The result is null exactly when the name is absent, and otherwise the storage buffer stored under it |
| `ResourceManager.GetUBO` | csresourcemanager.cpp:55-62 | The result is null exactly when the name is absent, and otherwise the uniform buffer stored under it |
| `ResourceManager.ReleaseAll` | csresourcemanager.cpp:63-70 | Afterwards every lookup in all three registries fails |
| `ResourceManager.Teardown` | csresourcemanager.h:23-25 | The destructor leaves the registry equal to a freshly constructed one, so every lookup fails |
| `ResourceManager.CreateSSBOWithData` | csresourcemanager.h:37-42 | `name` holds a fresh owned SSBO whose store is exactly `sizeof(T) * data.size()` bytes equal to the vector's bytes; other names and other registries are unchanged, and, since the model frees no GL buffer when an entry is overwritten, so are existing buffers (see Left out) |
| `ResourceManager.CreateSSBOWithDataLayout` | csresourcemanager.h:37-42 | Byte `k` of element `i` sits at offset `i * sizeof(T) + k` of the new buffer's store |
| `ResourceManager.UploadUBOData` | csresourcemanager.h:44-53 | It returns true exactly when `name` holds a UBO, and on false no GL state changes. On true, the `sizeof(T) * data.size()` bytes at `offset` of that UBO become the vector's bytes when that range lies inside the store, and nothing else changes; otherwise nothing changes, and the result is still true |
| `ResourceManager.SameNameAcrossCollections` | csresourcemanager.cpp:3-36 | One name can hold a shader, a storage buffer and a uniform buffer at once, since each bulk operation touches only its own registry |
| `Common.AsSigned` | computepipeline.cpp:89-93 | `static_cast<int>` of an `unsigned` keeps values below 2^31 and maps the others to the value minus 2^32, so the result is congruent to the input modulo 2^32 |
| `Common.FlattenLength` | csresourcemanager.h:39 | A vector of `n` elements of `sizeof(T)` bytes spans `sizeof(T) * n` bytes |
| `ComputePipeline.NewPipeline` | computepipeline.cpp:3-5 | A freshly constructed pipeline has no shader, buffer or program under any name, so it owns no program object and satisfies `Build`'s precondition in every GL context |
| `ComputePipeline.AddShader` | computepipeline.cpp:7-9 | Exactly the shader entry for `name` is inserted or overwritten; other names and the other maps are unchanged |
| `ComputePipeline.AddSSBO` | computepipeline.cpp:11-13 | Exactly the storage-buffer entry for `name` is inserted or overwritten; other names and the other maps are unchanged |
| `ComputePipeline.AddUBO` | computepipeline.cpp:15-17 | Exactly the uniform-buffer entry for `name` is inserted or overwritten; other names and the other maps are unchanged |
| `ComputePipeline.BlockBindingIdempotent` | computepipeline.cpp:44-49 | Re-assigning a block the binding introspection reported for it leaves the program's interface as it was |
| `ComputePipeline.Resolve` | computepipeline.cpp:38-64 | Each binding point that some entry declares ends up holding the buffer of the last such entry in iteration order, and points no entry declares keep their buffer; buffers, programs, uniforms and the command log are unchanged |
| `ComputePipeline.Build` | computepipeline.cpp:19-68 | The status is "shader not found", "compile error", "link error" or "built" exactly as lookup, compile and link succeed. A failure changes nothing. On success, the name holds a freshly linked program with the reflected interface, and other program entries are unchanged. Storage and uniform slots hold their last declaring buffer. Slots that neither declares keep their buffer. The program object it replaces is deleted, every other program object keeps its interface, no program object appears besides the new one, and every built program still owns a distinct live program object |
| `ComputePipeline.BuildBindsGreatestDeclarer` | computepipeline.cpp:38-64 | After a successful build, a storage (or uniform) binding index declared by several registered names holds the buffer of the lexicographically greatest of them |
| `ComputePipeline.BuildKeepsUndeclaredSlots` | computepipeline.cpp:38-64 | After a successful build, a binding point that no registered storage or uniform buffer name declares holds what it held before |
| `ComputePipeline.BuildIgnoresUndeclaredSSBO` | computepipeline.cpp:38-51 | Registering a storage buffer under a name the shader does not declare changes neither the build's outcome nor any binding point it leaves behind |
| `ComputePipeline.FailedRebuildKeepsProgram` | computepipeline.cpp:19-68 | After a failed build the program stored under the name is the earlier one, so a later dispatch behaves exactly as before, and issues nothing if no program was ever built |
| `ComputePipeline.DispatchAfterBuildRunsNewProgram` | computepipeline.cpp:19-81 | A dispatch after a successful build runs a program object that did not exist before the build and has the shader's reflected interface |
| `ComputePipeline.Dispatch` | computepipeline.cpp:70-81 | With no program built under the name nothing is submitted; otherwise exactly one dispatch of `(x, y, z)` with that program followed by one storage barrier is appended, and nothing else changes |
| `ComputePipeline.SetUniform` | computepipeline.cpp:125-145 | It succeeds exactly when a program is built under the shader name and the uniform has a non-negative location; on failure nothing is written; on success exactly that location of that program gets the value |
| `ComputePipeline.SetUniformLastWins` | computepipeline.cpp:125-145 | Writing a uniform and then writing it again gives the same result and context as the second write alone, since a write never changes where a uniform lives |
| `ComputePipeline.SetUniformUnsigned` | computepipeline.cpp:89-93 | It succeeds exactly when a program is built under the shader name and the uniform has a non-negative location, and on failure nothing is written. On success exactly that location of that program changes: it holds an `int` equal to the argument when the argument is below 2^31, and to the argument minus 2^32 otherwise |
| `ShaderPipeline.Empty` | ComputeShaderPipeline.h:25-26 | A default-constructed pipeline has no stages |
| `ShaderPipeline.AddShader` | ComputeShaderPipeline.h:9-11 | The new shader goes at the end and the earlier shaders keep their order |
| `ShaderPipeline.LoadAll` | ComputeShaderPipeline.h:13-17 | It returns true exactly when every shader loads, and so true for an empty list. Loads happen in order, and every shader before the last attempted one loaded. On failure the last attempted load failed and no later shader was tried |
| `ShaderPipeline.RunAll` | ComputeShaderPipeline.h:19-23 | The issued calls are the shaders in order with the same `(x, y, z)`. It stops right after the first failing dispatch. It returns true exactly when every dispatch succeeds, and then every shader was dispatched |
| `ShaderPipeline.RunAllDefault` | ComputeShaderPipeline.h:19-23 | With default arguments every issued dispatch uses one work group in each dimension. The shaders are dispatched in order, it stops right after the first failing dispatch, and it returns true exactly when every dispatch succeeds |
| `Demo.AddWrap` | demowidget.cpp:33 | `uint32_t` addition is congruent to the true sum modulo 2^32 and equals it when there is no overflow |
| `Demo.PrefixSumCPU` | demowidget.cpp:28-35 | The output has the input's length whatever it held before. Element `i` is the sum of inputs `0..i` modulo 2^32, the first element is the first input, and each later element is the previous one plus the next input with wrap-around |
| `Demo.TruncDiv` | demowidget.cpp:88 | C++ integer division truncates toward zero: the quotient times the divisor is within one divisor of the dividend, on the side of zero |
| `Demo.NumBlocks` | demowidget.cpp:88 | For a non-negative size, `(n + 255) / 256` is the fewest 256-element groups covering `n` elements: `(nb - 1) * 256 < n <= nb * 256`, and 0 for an empty data set |
| `Demo.BlockSumsBytes` | demowidget.cpp:88-90 | The block-sums buffer is `4 * numBlocks` bytes, which covers one `uint32_t` per block, and it wraps modulo 2^64 when `numBlocks` is negative |

## Left out

- **`GetAllShaders`, `GetAllSSBOs`, `GetAllUBOs`, `Id()` and `Name()`.** These
  accessors are the `Registry` and `Buffer` record fields themselves, so
  they need no separate member.
- **`CreatExternalSSBO`.** It is declared in csresourcemanager.h but has no
  definition, so there is nothing to model.
- **Reference counting of `std::shared_ptr`.** Overwriting or clearing a
  registry entry never destroys a GL buffer in the model. In the source, a
  buffer is freed only when its last owner lets go, and owners outside the
  registry are not part of this model. `Destroy` models the destructor
  itself.
- **The `GLenum usage` hint.** It is not modelled. It affects GL performance
  only, not contents.
- **Integer widths.** GL names are unbounded naturals, not 32-bit `GLuint`
  values, so running out of names is not modelled. Binding indices are not
  limited by `GL_MAX_*_BUFFER_BINDINGS`.
- **Default arguments of `Dispatch`.** The defaults `y = 1` and `z = 1`
  (computepipeline.h:30) are not modelled separately: `Dispatch` always
  takes all three counts.
- **Binding the current program.** `bind()` and `release()` around dispatch
  and uniform writes are not modelled. `Dispatch` records the program id
  with each dispatch instead.
- **Real GLSL compilation, linking and program introspection.** These are
  the `Backend` oracle. The reflected binding of a block is taken as
  reported, and the reinterpretation of `GLint` as `GLuint` at
  computepipeline.cpp:47 is not modelled.
- **Memory barriers and GPU asynchrony.** Only the order in which commands
  are submitted is recorded. Nothing is said about when the GPU executes
  them, and `glFinish` is not modelled.
- **Uniform payloads.** Floats, vectors and matrices are opaque bit
  patterns. Only the guard logic and the `unsigned` conversion are modelled.
- **Shader file reading (ComputeShader.h).** The file system is a function
  from path to text, or to nothing when the file cannot be opened. The error
  message written to `std::cerr` is not modelled.
- **`ComputeShaderBase`.** It is not part of this model. `load` and
  `dispatch` of a pipeline stage are oracles, and so is `BlurShader.h`,
  which builds on it.
- **The rest of demowidget.cpp.** The widget lifecycle, buffer preparation,
  `RunDemoPipeline`, timing, printing, buffer read-back and random data
  generation are left out. `RunComputeShader` is also left out: at
  demowidget.cpp:101 it calls `Dispatch` with a signature computepipeline.h
  does not declare.
- Demo.NumBlocks: its contract excludes sizes for which `dataSize + 255`
  overflows `int`, which is undefined behaviour in C++.
- Demo.BlockSumsBytes: has the same restriction as `Demo.NumBlocks`.
- ResourceManager.CreateSSBOs: overwriting an entry releases the registry's
  `std::shared_ptr` (csresourcemanager.cpp:15). When that was the last
  reference, `~GLBufferObject` deletes the old GL buffer
  (GLBufferObject.cpp:16-21). The model keeps every GL buffer alive instead,
  because it does not count references.
- ResourceManager.CreateUBOs: the same as `CreateSSBOs` for an overwritten
  uniform buffer (csresourcemanager.cpp:33).
- ResourceManager.CreateSSBOWithData: the same for a storage buffer replaced
  under `name` (csresourcemanager.h:40).
- ResourceManager.ReleaseAll: clearing the three maps (csresourcemanager.cpp:65-67)
  drops every reference the registry holds. Buffers only the registry owned
  are deleted in the source but stay alive in the model.
- ResourceManager.Teardown: the destructor runs `ReleaseAll`
  (csresourcemanager.h:23-25), so it has the same gap: buffers only the
  registry owned are deleted in the source but stay alive in the model.
- ComputePipeline.AddShader: a null `std::shared_ptr`, such as `GetShader`'s
  result for an absent name, cannot be registered in the model. The source
  accepts one, and `Build` of that name then dereferences null
  (computepipeline.cpp:27), which is undefined behaviour.
- ComputePipeline.AddSSBO: a null storage buffer cannot be registered in the
  model. Under a name the program declares, `Build` dereferences it
  (computepipeline.cpp:50), which is undefined behaviour. Under any other
  name it is harmless.
- ComputePipeline.AddUBO: the same as `AddSSBO` for a null uniform buffer
  (computepipeline.cpp:63).
- ComputePipeline.Resolve: names are Dafny strings of Unicode characters, not
  byte strings, so names that are not valid UTF-8 cannot be represented. The
  source passes `name.c_str()` to GL (computepipeline.cpp:39, 54), which cuts
  a name at its first NUL. So a key such as "Data\0x" matches the block
  "Data" in the source but not in the model.
- BufferObject.Create: store sizes are unbounded naturals. The source passes
  a `std::size_t` as the signed `GLsizeiptr`, so a size of 2^63 or more
  becomes negative and GL rejects it with `GL_INVALID_VALUE`. The model
  allocates it instead. The same applies to `BufferObject.Resize`,
  `BufferObject.NewUBO`, `ResourceManager.MakeSSBO`,
  `ResourceManager.CreateSSBOs`, `ResourceManager.CreateUBOs` and
  `ResourceManager.CreateSSBOWithData`.
- BufferObject.BindToIndex: GL rejects `glBindBufferBase` with a non-zero
  name that is not a buffer object (`GL_INVALID_OPERATION`) and leaves the
  binding point unchanged. The model writes the name into the binding point
  regardless. An external buffer registered with an arbitrary `GLuint`
  (csresourcemanager.cpp:20-28) reaches this case.
- ComputePipeline.Resolve: it inherits the `BindToIndex` gap. A declaring
  entry whose GL name is not a buffer object is bound in the model, whereas
  GL keeps the earlier binding (computepipeline.cpp:50, 63).
- ComputePipeline.Build: its binding-point clauses inherit the same gap
  through `Resolve`.
- ComputePipeline.BuildBindsGreatestDeclarer: the greatest declarer's GL name
  is bound even when it is not a buffer object, which GL would reject.
- ComputePipeline.SetUniform: the GLSL type of the uniform is not modelled.
  GL rejects a `glUniform*` call whose type does not match the uniform's
  declared type (`GL_INVALID_OPERATION`) and writes nothing. `SetUniformImpl`
  still returns true (computepipeline.cpp:142-144), while the model stores
  the value.
- ComputePipeline.SetUniformUnsigned: the `unsigned` overload issues
  `glUniform1i` with the value cast to `int` (computepipeline.cpp:89-93). On a
  GLSL `uint` uniform GL rejects the call and stores nothing, yet the model
  stores the `IntValue`.

=== FILE: buffer_object.dfy ===
/**
 * `GLBufferObject` and its two kinds, `SSBO` and `UBO`.
 *
 * A buffer object is an immutable handle (bind target, GL name, debug name,
 * ownership flag); its size and bytes live in the GL context, which every
 * operation takes and returns.
 */
module BufferObject {
  import opened Common
  import opened GLModel

  datatype Buffer = Buffer(target: Target, id: BufferId, name: string, owns: bool)

  /** A buffer bound through the shader-storage binding points. */
  type SSBO = b: Buffer | b.target == ShaderStorageBuffer
    witness Buffer(ShaderStorageBuffer, 0, "", false)

  /** A buffer bound through the uniform-buffer binding points. */
  type UBO = b: Buffer | b.target == UniformBuffer
    witness Buffer(UniformBuffer, 0, "UBO", false)

  /** The debug name every `UBO` carries, whatever it is registered under. */
  const UBO_NAME: string := "UBO"

  /** Buffer `id` holds exactly `size` bytes, taken from `data` or undefined when there is none. */
  predicate Holds(gl: GLState, id: BufferId, size: nat, data: Option<seq<byte>>)
    requires data.Some? ==> |data.value| >= size
  {
    && id in gl.buffers
    && |gl.buffers[id]| == size
    && forall i :: 0 <= i < size ==>
         gl.buffers[id][i] == (if data.Some? then Some(data.value[i]) else None)
  }

  /** Every buffer other than `id` exists in `b` exactly when in `a`, with the same bytes. */
  ghost predicate OthersUnchanged(a: GLState, b: GLState, id: BufferId)
  {
    && (forall k :: k != id ==> (k in a.buffers <==> k in b.buffers))
    && (forall k :: k != id && k in a.buffers ==> b.buffers[k] == a.buffers[k])
  }

  /**
   * `GLBufferObject(target, name, owns)`: an owning object takes a freshly
   * created GL name with an empty store; a non-owning one keeps the default id 0.
   */
  function Construct(target: Target, name: string, owns: bool, gl: GL): (r: (Buffer, GL))
    ensures r.0.target == target && r.0.name == name && r.0.owns == owns
    ensures owns ==> r.0.id != 0 && r.0.id !in gl.buffers && Holds(r.1, r.0.id, 0, None)
    ensures owns ==> OthersUnchanged(gl, r.1, r.0.id) && SameExceptBuffers(gl, r.1)
    ensures owns ==> r.1.nextBuffer > r.0.id && forall k :: k in gl.buffers ==> k < r.0.id
    ensures !owns ==> r.0.id == 0 && r.1 == gl
  {
    if owns then
      var (id, gl') := CreateBuffer(gl);
      (Buffer(target, id, name, true), gl')
    else (Buffer(target, 0, name, false), gl)
  }

  /** `GLBufferObject(target, existingId, name)`: wraps a GL name someone else owns. */
  function Adopt(target: Target, existingId: BufferId, name: string): (b: Buffer)
    ensures b.target == target && b.id == existingId && b.name == name
    ensures !b.owns
  {
    Buffer(target, existingId, name, false)
  }

  /** `~GLBufferObject()`: frees the GL buffer only when owned and non-zero. */
  function Destroy(b: Buffer, gl: GL): (r: GL)
    ensures !b.owns || b.id == 0 ==> r == gl
    ensures b.owns && b.id != 0 ==> b.id !in r.buffers && OthersUnchanged(gl, r, b.id)
    ensures b.owns && b.id != 0 ==>
              forall t: Target, i: nat :: Slot(r, t, i) == (if Slot(gl, t, i) == b.id then 0 else Slot(gl, t, i))
    ensures r.programs == gl.programs && r.uniforms == gl.uniforms && r.events == gl.events
  {
    if b.owns && b.id != 0 then DeleteBuffer(gl, b.id) else gl
  }

  /**
   * `Create(size, data, usage)`: on an owned buffer, a data store of `size`
   * bytes initialised from `data`; on an external buffer, only a warning.
   */
  function Create(b: Buffer, size: nat, data: Option<seq<byte>>, gl: GL): (r: GL)
    requires data.Some? ==> |data.value| >= size
    ensures !b.owns ==> r == gl
    ensures b.owns && b.id in gl.buffers ==> Holds(r, b.id, size, data)
    ensures b.owns && b.id !in gl.buffers ==> r == gl
    ensures OthersUnchanged(gl, r, b.id) && SameExceptBuffers(gl, r) && r.nextBuffer == gl.nextBuffer
  {
    if !b.owns then gl
    else NamedBufferData(gl, b.id, size, data)
  }

  /**
   * `Resize(newSize, data, usage)`: the same reallocation as `Create`. Nothing of
   * the previous store survives: the new bytes depend only on `newSize` and `data`.
   */
  function Resize(b: Buffer, newSize: nat, data: Option<seq<byte>>, gl: GL): (r: GL)
    requires data.Some? ==> |data.value| >= newSize
    ensures !b.owns ==> r == gl
    ensures b.owns && b.id in gl.buffers ==> Holds(r, b.id, newSize, data)
    ensures b.owns && b.id in gl.buffers && data.None? ==>
              forall i :: 0 <= i < |r.buffers[b.id]| ==> r.buffers[b.id][i].None?
    ensures OthersUnchanged(gl, r, b.id) && SameExceptBuffers(gl, r)
  {
    Create(b, newSize, data, gl)
  }

  /**
   * `UploadData(data, size, offset)`: owned or not, bytes `[offset, offset + size)`
   * become `data` and every other byte keeps its value. A range outside the
   * store is rejected by GL and changes nothing.
   */
  function UploadData(b: Buffer, data: seq<byte>, size: nat, offset: int, gl: GL): (r: GL)
    requires |data| >= size
    ensures InRange(gl, b.id, offset, size) ==>
              && b.id in r.buffers
              && |r.buffers[b.id]| == |gl.buffers[b.id]|
              && forall j :: 0 <= j < |gl.buffers[b.id]| ==>
                   r.buffers[b.id][j] ==
                     if offset <= j < offset + size then Some(data[j - offset]) else gl.buffers[b.id][j]
    ensures !InRange(gl, b.id, offset, size) ==> r == gl
    ensures OthersUnchanged(gl, r, b.id) && SameExceptBuffers(gl, r) && r.nextBuffer == gl.nextBuffer
  {
    NamedBufferSubData(gl, b.id, offset, size, data)
  }

  /** `BindToIndex(index)`: binding point `index` of the buffer's own target now holds it. */
  function BindToIndex(b: Buffer, index: nat, gl: GL): (r: GL)
    ensures Slot(r, b.target, index) == b.id
    ensures forall t: Target, i: nat :: (t, i) != (b.target, index) ==> Slot(r, t, i) == Slot(gl, t, i)
    ensures r.buffers == gl.buffers && r.nextBuffer == gl.nextBuffer && r.programs == gl.programs
    ensures r.nextProgram == gl.nextProgram && r.uniforms == gl.uniforms && r.events == gl.events
  {
    BindBufferBase(gl, b.target, index, b.id)
  }

  /** `SSBO(name)`: an owned storage buffer with a fresh GL name and no store yet. */
  function NewSSBO(name: string, gl: GL): (r: (SSBO, GL))
    ensures r.0.owns && r.0.name == name
    ensures r.0.id != 0 && r.0.id !in gl.buffers && Holds(r.1, r.0.id, 0, None)
    ensures OthersUnchanged(gl, r.1, r.0.id) && SameExceptBuffers(gl, r.1)
    ensures r.1.nextBuffer > r.0.id && forall k :: k in gl.buffers ==> k < r.0.id
  {
    Construct(ShaderStorageBuffer, name, true, gl)
  }

  /** `SSBO(name, externalId)`: a storage-buffer view of a GL name owned elsewhere. */
  function ExternalSSBO(name: string, externalId: BufferId): (b: SSBO)
    ensures !b.owns && b.id == externalId && b.name == name
  {
    Adopt(ShaderStorageBuffer, externalId, name)
  }

  /** `UBO(size, usage)`: an owned uniform buffer, immediately given `size` undefined bytes. */
  function NewUBO(size: nat, gl: GL): (r: (UBO, GL))
    ensures r.0.owns && r.0.name == UBO_NAME
    ensures r.0.id != 0 && r.0.id !in gl.buffers && Holds(r.1, r.0.id, size, None)
    ensures OthersUnchanged(gl, r.1, r.0.id) && SameExceptBuffers(gl, r.1)
    ensures r.1.nextBuffer > r.0.id && forall k :: k in gl.buffers ==> k < r.0.id
  {
    var (b, gl1) := Construct(UniformBuffer, UBO_NAME, true, gl);
    (b, Create(b, size, None, gl1))
  }

  /** `UBO(externalId)`: a uniform-buffer view of a GL name owned elsewhere. */
  function ExternalUBO(externalId: BufferId): (b: UBO)
    ensures !b.owns && b.id == externalId && b.name == UBO_NAME
  {
    Adopt(UniformBuffer, externalId, UBO_NAME)
  }

  /**
   * A wrapped external name is never reallocated or freed, whatever is asked of
   * it, yet its bytes can still be written in place exactly as an owned buffer's.
   */
  lemma ExternalBufferInert(target: Target, existingId: BufferId, name: string,
                            size: nat, data: Option<seq<byte>>, gl: GL)
    requires data.Some? ==> |data.value| >= size
    ensures var b := Adopt(target, existingId, name);
      && Create(b, size, data, gl) == gl
      && Resize(b, size, data, gl) == gl
      && Destroy(b, gl) == gl
    ensures data.Some? ==>
      UploadData(Adopt(target, existingId, name), data.value, size, 0, gl)
        == UploadData(Buffer(target, existingId, name, true), data.value, size, 0, gl)
  {
  }

  /**
   * An owned buffer that was created and then written from offset 0 with data
   * of the store's full size reads back exactly that data.
   */
  lemma UploadRoundTrip(b: Buffer, size: nat, data: seq<byte>, gl: GL)
    requires b.owns && b.id in gl.buffers && |data| == size
    ensures var g := UploadData(b, data, size, 0, Create(b, size, None, gl));
      b.id in g.buffers && g.buffers[b.id] == seq(size, i requires 0 <= i < size => Some(data[i]))
  {
    var g1 := Create(b, size, None, gl);
    var g := UploadData(b, data, size, 0, g1);
    assert InRange(g1, b.id, 0, size);
  }
}

=== FILE: common.dfy ===
/** Machine-width integer types and the Option wrapper shared by every module. */
module Common {

  /** C++ `uint8_t`-sized memory cell. */
  type byte = x: int | 0 <= x < 0x100

  /** `GLuint` / `uint32_t`. */
  type uint32 = x: int | 0 <= x < 0x1_0000_0000

  /** `int` / `GLint` on the targets this code is built for. */
  type int32 = x: int | -0x8000_0000 <= x < 0x8000_0000

  const TWO_TO_THE_32: int := 0x1_0000_0000

  /** A null-able result, in place of a null `std::shared_ptr`. */
  datatype Option<+T> = None | Some(value: T)

  /** `static_cast<int>(u)` for a 32-bit unsigned `u`: two's-complement reinterpretation. */
  function AsSigned(u: uint32): (r: int32)
    ensures 0 <= r ==> r == u
    ensures r < 0 ==> r + TWO_TO_THE_32 == u
    ensures (r - u) % TWO_TO_THE_32 == 0
  {
    if u < 0x8000_0000 then u else u - TWO_TO_THE_32
  }

  /** Concatenation of the object representations of a `std::vector<T>`'s elements. */
  function Flatten(elems: seq<seq<byte>>): seq<byte>
  {
    if |elems| == 0 then [] else Flatten(elems[..|elems| - 1]) + elems[|elems| - 1]
  }

  /** Every element is the representation of one `T`, i.e. `sizeof(T)` bytes long. */
  predicate Uniform(elems: seq<seq<byte>>, elemSize: nat)
  {
    forall i :: 0 <= i < |elems| ==> |elems[i]| == elemSize
  }

  /** `data.data()` spans `sizeof(T) * data.size()` bytes. */
  lemma {:induction false} FlattenLength(elems: seq<seq<byte>>, elemSize: nat)
    requires Uniform(elems, elemSize)
    ensures |Flatten(elems)| == elemSize * |elems|
  {
    if |elems| > 0 {
      FlattenLength(elems[..|elems| - 1], elemSize);
    }
  }

  /** Element `i` of the vector occupies bytes `[i * sizeof(T), (i + 1) * sizeof(T))`. */
  lemma {:induction false} FlattenElement(elems: seq<seq<byte>>, elemSize: nat, i: nat, k: nat)
    requires Uniform(elems, elemSize)
    requires i < |elems| && k < elemSize
    ensures i * elemSize + k < |Flatten(elems)|
    ensures Flatten(elems)[i * elemSize + k] == elems[i][k]
  {
    var n := |elems| - 1;
    FlattenLength(elems, elemSize);
    FlattenLength(elems[..n], elemSize);
    if i < n {
      FlattenElement(elems[..n], elemSize, i, k);
      assert i * elemSize + k < n * elemSize by {
        assert (i + 1) * elemSize <= n * elemSize;
      }
    } else {
      assert i * elemSize + k == n * elemSize + k;
    }
  }
}

=== FILE: compute_pipeline.dfy ===
/**
 * `ComputePipeline`: named shaders, storage and uniform buffers, and the
 * programs built from the shaders. `Build` compiles and links one shader and
 * then resolves bindings: every registered buffer whose name is a block of
 * the program is bound at the binding index the program declares for it.
 */
module ComputePipeline {
  import opened Common
  import opened OrderedMap
  import opened GLModel
  import opened BufferObject
  import opened ResourceManager

  /** A built `QOpenGLShaderProgram`: the GL program object it owns. */
  datatype Program = Program(id: ProgramId)

  datatype Pipeline = Pipeline(
    shaders: OrdMap<Shader>,
    ssbos: OrdMap<SSBO>,
    programs: OrdMap<Program>,
    ubos: OrdMap<UBO>)

  /**
   * `ComputePipeline()`: nothing registered and nothing built, so it owns no
   * program object and meets `Live` in every GL context.
   */
  function NewPipeline(): (p: Pipeline)
    ensures forall n :: && Get(p.shaders, n).None? && Get(p.ssbos, n).None?
                        && Get(p.programs, n).None? && Get(p.ubos, n).None?
    ensures forall gl: GLState :: Live(p, gl)
  {
    Pipeline([], [], [], [])
  }

  /**
   * The GLSL compiler, the linker and program introspection, none of which is
   * part of this model: each is a fixed function of the kernel text.
   */
  datatype Backend = Backend(
    compiles: string -> bool,
    links: string -> bool,
    reflect: string -> Reflection)

  /** Which diagnostic `Build` writes; the source returns only `status == Built`. */
  datatype BuildStatus = Built | ShaderNotFound | CompileError | LinkError

  datatype BuildResult = BuildResult(status: BuildStatus, pipeline: Pipeline, gl: GL)

  /** Every built program owns a live GL program object of its own. */
  ghost predicate Live(p: Pipeline, gl: GLState)
  {
    && (forall i :: 0 <= i < |p.programs| ==> p.programs[i].1.id in gl.programs)
    && (forall i, j :: 0 <= i < j < |p.programs| ==> p.programs[i].1.id != p.programs[j].1.id)
  }

  /** `AddShader(name, shader)`: exactly the shader entry for `name` changes. */
  function AddShader(p: Pipeline, name: string, shader: Shader): (r: Pipeline)
    ensures Get(r.shaders, name) == Some(shader)
    ensures forall n :: n != name ==> Get(r.shaders, n) == Get(p.shaders, n)
    ensures r.ssbos == p.ssbos && r.programs == p.programs && r.ubos == p.ubos
  {
    p.(shaders := Put(p.shaders, name, shader))
  }

  /** `AddSSBO(name, ssbo)`: exactly the storage-buffer entry for `name` changes. */
  function AddSSBO(p: Pipeline, name: string, ssbo: SSBO): (r: Pipeline)
    ensures Get(r.ssbos, name) == Some(ssbo)
    ensures forall n :: n != name ==> Get(r.ssbos, n) == Get(p.ssbos, n)
    ensures r.shaders == p.shaders && r.programs == p.programs && r.ubos == p.ubos
  {
    p.(ssbos := Put(p.ssbos, name, ssbo))
  }

  /** `AddUBO(name, ubo)`: exactly the uniform-buffer entry for `name` changes. */
  function AddUBO(p: Pipeline, name: string, ubo: UBO): (r: Pipeline)
    ensures Get(r.ubos, name) == Some(ubo)
    ensures forall n :: n != name ==> Get(r.ubos, n) == Get(p.ubos, n)
    ensures r.shaders == p.shaders && r.programs == p.programs && r.ssbos == p.ssbos
  {
    p.(ubos := Put(p.ubos, name, ubo))
  }

  /** Entry `e` is a block of `blocks` declared at index `i`, and its buffer binds through `t`. */
  predicate Declares(e: (string, Buffer), blocks: map<string, nat>, t: Target, i: nat)
  {
    e.0 in blocks && blocks[e.0] == i && e.1.target == t
  }

  /** `entries[j]` is the last entry that declares binding point `(t, i)`. */
  predicate LastDeclarer(entries: seq<(string, Buffer)>, blocks: map<string, nat>, t: Target, i: nat, j: int)
  {
    && 0 <= j < |entries|
    && Declares(entries[j], blocks, t, i)
    && forall k :: j < k < |entries| ==> !Declares(entries[k], blocks, t, i)
  }

  /** No entry declares binding point `(t, i)`. */
  predicate NoDeclarer(entries: seq<(string, Buffer)>, blocks: map<string, nat>, t: Target, i: nat)
  {
    forall k :: 0 <= k < |entries| ==> !Declares(entries[k], blocks, t, i)
  }

  /** Re-assigning a block the binding it already has leaves the program's interface as it was. */
  lemma BlockBindingIdempotent(gl: GL, pid: ProgramId, kind: BlockKind, name: string)
    requires pid in gl.programs && name in gl.programs[pid].Blocks(kind)
    ensures BlockBinding(gl, pid, kind, name, gl.programs[pid].Blocks(kind)[name]) == gl
  {
    var refl := gl.programs[pid];
    var b := refl.Blocks(kind)[name];
    match kind
    case ShaderStorageBlock =>
      assert refl.storageBlocks[name := b] == refl.storageBlocks;
    case UniformBlock =>
      assert refl.uniformBlocks[name := b] == refl.uniformBlocks;
  }

  /**
   * The binding-resolution loop over one collection, in iteration order: an
   * entry whose name is not a `kind` block of program `pid` is skipped;
   * otherwise the block's declared binding is re-assigned to it and the buffer
   * is bound at that index. Each binding point ends up holding the buffer of
   * the last entry that declares it; points nobody declares keep their buffer.
   */
  function Resolve(entries: seq<(string, Buffer)>, kind: BlockKind, pid: ProgramId, gl: GL): (r: GL)
    requires pid in gl.programs
    ensures r.programs == gl.programs
    ensures r.buffers == gl.buffers && r.nextBuffer == gl.nextBuffer && r.nextProgram == gl.nextProgram
    ensures r.uniforms == gl.uniforms && r.events == gl.events
    ensures forall t: Target, i: nat, j :: LastDeclarer(entries, gl.programs[pid].Blocks(kind), t, i, j) ==>
              Slot(r, t, i) == entries[j].1.id
    ensures forall t: Target, i: nat :: NoDeclarer(entries, gl.programs[pid].Blocks(kind), t, i) ==>
              Slot(r, t, i) == Slot(gl, t, i)
    decreases |entries|
  {
    if |entries| == 0 then gl
    else
      var n := |entries| - 1;
      var g := Resolve(entries[..n], kind, pid, gl);
      var blocks := g.programs[pid].Blocks(kind);
      var (name, buf) := entries[n];
      if name !in blocks then
        ResolveStep(entries, gl.programs[pid].Blocks(kind), gl, g, g);
        g
      else
        var binding := blocks[name];
        BlockBindingIdempotent(g, pid, kind, name);
        var g1 := BindToIndex(buf, binding, BlockBinding(g, pid, kind, name, binding));
        ResolveStep(entries, gl.programs[pid].Blocks(kind), gl, g, g1);
        g1
  }

  /**
   * One step of `Resolve`: what the prefix established carries over to the
   * whole list, given how the last entry changed the binding points.
   */
  lemma ResolveStep(entries: seq<(string, Buffer)>, blocks: map<string, nat>, gl: GLState, g: GLState, g1: GLState)
    requires |entries| > 0
    requires var n := |entries| - 1;
      && (forall t: Target, i: nat, j :: LastDeclarer(entries[..n], blocks, t, i, j) ==>
            Slot(g, t, i) == entries[..n][j].1.id)
      && (forall t: Target, i: nat :: NoDeclarer(entries[..n], blocks, t, i) ==> Slot(g, t, i) == Slot(gl, t, i))
    requires var (name, buf) := entries[|entries| - 1];
      && (name !in blocks ==> g1.bindings == g.bindings)
      && (name in blocks ==>
            && Slot(g1, buf.target, blocks[name]) == buf.id
            && forall t: Target, i: nat :: (t, i) != (buf.target, blocks[name]) ==> Slot(g1, t, i) == Slot(g, t, i))
    ensures forall t: Target, i: nat, j :: LastDeclarer(entries, blocks, t, i, j) ==> Slot(g1, t, i) == entries[j].1.id
    ensures forall t: Target, i: nat :: NoDeclarer(entries, blocks, t, i) ==> Slot(g1, t, i) == Slot(gl, t, i)
  {
    var n := |entries| - 1;
    var init := entries[..n];
    var (name, buf) := entries[n];
    forall t: Target, i: nat, j | LastDeclarer(entries, blocks, t, i, j)
      ensures Slot(g1, t, i) == entries[j].1.id
    {
      if j < n {
        assert LastDeclarer(init, blocks, t, i, j);
        assert !Declares(entries[n], blocks, t, i);
      }
    }
    forall t: Target, i: nat | NoDeclarer(entries, blocks, t, i)
      ensures Slot(g1, t, i) == Slot(gl, t, i)
    {
      assert NoDeclarer(init, blocks, t, i);
      assert !Declares(entries[n], blocks, t, i);
    }
  }

  /** The GL program object a successful build of `name` destroys, if any. */
  function Replaced(p: Pipeline, name: string): Option<ProgramId>
  {
    match Get(p.programs, name)
    case None => None
    case Some(previous) => Some(previous.id)
  }

  /**
   * `Build(shaderName)`: find the shader, compile it, link it, resolve the
   * storage-buffer bindings and then the uniform-buffer bindings, and only then
   * store the program under `shaderName`, destroying the one it replaces.
   */
  function Build(p: Pipeline, gl: GL, be: Backend, name: string): (r: BuildResult)
    requires Live(p, gl)
    ensures Live(r.pipeline, r.gl)
    ensures r.status == ShaderNotFound <==> name !in Keys(p.shaders)
    ensures name in Keys(p.shaders) ==>
      var src := Get(p.shaders, name).value.source;
      && (r.status == CompileError <==> !be.compiles(src))
      && (r.status == LinkError <==> be.compiles(src) && !be.links(src))
      && (r.status == Built <==> be.compiles(src) && be.links(src))
    ensures r.status != Built ==> r.pipeline == p && r.gl == gl
    ensures r.pipeline.shaders == p.shaders && r.pipeline.ssbos == p.ssbos && r.pipeline.ubos == p.ubos
    ensures forall n :: n != name ==> Get(r.pipeline.programs, n) == Get(p.programs, n)
    ensures r.gl.buffers == gl.buffers && r.gl.uniforms == gl.uniforms && r.gl.events == gl.events
    ensures r.status == Built ==>
      var refl := be.reflect(Get(p.shaders, name).value.source);
      && Get(r.pipeline.programs, name).Some?
      && var pid := Get(r.pipeline.programs, name).value.id;
      && pid !in gl.programs && pid in r.gl.programs && r.gl.programs[pid] == refl
      && (forall q :: q in r.gl.programs ==> q in gl.programs || q == pid)
      && (Get(p.programs, name).Some? ==> Get(p.programs, name).value.id !in r.gl.programs)
      && (forall q :: q in gl.programs && Replaced(p, name) != Some(q) ==>
            q in r.gl.programs && r.gl.programs[q] == gl.programs[q])
      && (forall t: Target, i: nat, j :: LastDeclarer(p.ssbos, refl.storageBlocks, t, i, j) ==>
            Slot(r.gl, t, i) == p.ssbos[j].1.id)
      && (forall t: Target, i: nat, j :: LastDeclarer(p.ubos, refl.uniformBlocks, t, i, j) ==>
            Slot(r.gl, t, i) == p.ubos[j].1.id)
      && (forall t: Target, i: nat ::
            NoDeclarer(p.ssbos, refl.storageBlocks, t, i) && NoDeclarer(p.ubos, refl.uniformBlocks, t, i) ==>
            Slot(r.gl, t, i) == Slot(gl, t, i))
  {
    match Get(p.shaders, name)
    case None => BuildResult(ShaderNotFound, p, gl)
    case Some(shader) =>
      var src := shader.source;
      if !be.compiles(src) then BuildResult(CompileError, p, gl)
      else if !be.links(src) then BuildResult(LinkError, p, gl)
      else
        var refl := be.reflect(src);
        var (pid, gl1) := CreateProgram(gl, refl);
        var gl2 := Resolve(p.ssbos, ShaderStorageBlock, pid, gl1);
        var gl3 := Resolve(p.ubos, UniformBlock, pid, gl2);
        var gl4 := match Get(p.programs, name)
                   case Some(previous) => DeleteProgram(gl3, previous.id)
                   case None => gl3;
        var programs := Put(p.programs, name, Program(pid));
        BuildFinish(p, gl, gl1, gl2, gl3, gl4, name, pid, refl);
        BuildResult(Built, p.(programs := programs), gl4)
  }

  /** The facts `Build` promises on success, from those of its two `Resolve` passes. */
  lemma BuildFinish(p: Pipeline, gl: GL, gl1: GL, gl2: GL, gl3: GL, gl4: GL,
                    name: string, pid: ProgramId, refl: Reflection)
    requires Live(p, gl)
    requires pid !in gl.programs && gl1.programs == gl.programs[pid := refl]
    requires gl1.bindings == gl.bindings && gl1.buffers == gl.buffers
    requires gl2.programs == gl1.programs && gl3.programs == gl2.programs
    requires forall t: Target, i: nat, j :: LastDeclarer(p.ssbos, refl.storageBlocks, t, i, j) ==>
               Slot(gl2, t, i) == p.ssbos[j].1.id
    requires forall t: Target, i: nat :: NoDeclarer(p.ssbos, refl.storageBlocks, t, i) ==>
               Slot(gl2, t, i) == Slot(gl1, t, i)
    requires forall t: Target, i: nat, j :: LastDeclarer(p.ubos, refl.uniformBlocks, t, i, j) ==>
               Slot(gl3, t, i) == p.ubos[j].1.id
    requires forall t: Target, i: nat :: NoDeclarer(p.ubos, refl.uniformBlocks, t, i) ==>
               Slot(gl3, t, i) == Slot(gl2, t, i)
    requires gl4 == match Get(p.programs, name)
                    case Some(previous) => DeleteProgram(gl3, previous.id)
                    case None => gl3
    ensures var programs := Put(p.programs, name, Program(pid));
      && Live(p.(programs := programs), gl4)
      && pid in gl4.programs && gl4.programs[pid] == refl
      && (forall q :: q in gl4.programs ==> q in gl.programs || q == pid)
      && (Get(p.programs, name).Some? ==> Get(p.programs, name).value.id !in gl4.programs)
      && (forall q :: q in gl.programs && Replaced(p, name) != Some(q) ==>
            q in gl4.programs && gl4.programs[q] == gl.programs[q])
      && (forall t: Target, i: nat, j :: LastDeclarer(p.ssbos, refl.storageBlocks, t, i, j) ==>
            Slot(gl4, t, i) == p.ssbos[j].1.id)
      && (forall t: Target, i: nat, j :: LastDeclarer(p.ubos, refl.uniformBlocks, t, i, j) ==>
            Slot(gl4, t, i) == p.ubos[j].1.id)
      && (forall t: Target, i: nat ::
            NoDeclarer(p.ssbos, refl.storageBlocks, t, i) && NoDeclarer(p.ubos, refl.uniformBlocks, t, i) ==>
            Slot(gl4, t, i) == Slot(gl, t, i))
  {
    assert gl4.bindings == gl3.bindings;
    // A storage binding point is never declared by a uniform buffer, and vice versa.
    forall t: Target, i: nat, j | LastDeclarer(p.ssbos, refl.storageBlocks, t, i, j)
      ensures Slot(gl4, t, i) == p.ssbos[j].1.id
    {
      assert t == ShaderStorageBuffer;
      assert NoDeclarer(p.ubos, refl.uniformBlocks, t, i);
    }
    LiveAfterRebuild(p, gl, gl4, name, pid);
  }

  /** Storing a fresh program under `name` and deleting the one it replaces keeps `Live`. */
  lemma LiveAfterRebuild(p: Pipeline, gl: GL, gl4: GL, name: string, pid: ProgramId)
    requires Live(p, gl)
    requires pid !in gl.programs && pid in gl4.programs
    requires forall q :: q in gl.programs && (Get(p.programs, name).None? || q != Get(p.programs, name).value.id)
               ==> q in gl4.programs
    ensures Live(p.(programs := Put(p.programs, name, Program(pid))), gl4)
  {
    var programs := Put(p.programs, name, Program(pid));
    var previous := Get(p.programs, name);
    forall i | 0 <= i < |programs| ensures programs[i].1.id in gl4.programs {
      var n := programs[i].0;
      GetAt(programs, i);
      if n != name {
        var k :| 0 <= k < |p.programs| && p.programs[k] == (n, programs[i].1);
        if previous.Some? {
          var q :| 0 <= q < |p.programs| && p.programs[q] == (name, previous.value);
          assert q != k;
          if q < k {
            assert p.programs[q].1.id != p.programs[k].1.id;
          } else {
            assert p.programs[k].1.id != p.programs[q].1.id;
          }
        }
      }
    }
    forall i, j | 0 <= i < j < |programs| ensures programs[i].1.id != programs[j].1.id {
      GetAt(programs, i);
      GetAt(programs, j);
      var ni, nj := programs[i].0, programs[j].0;
      IndexOrder(programs, i, j);
      LessIrreflexive(ni);
      if ni != name && nj != name {
        var ki :| 0 <= ki < |p.programs| && p.programs[ki] == programs[i];
        var kj :| 0 <= kj < |p.programs| && p.programs[kj] == programs[j];
        assert ki != kj;
        if ki < kj {
          assert p.programs[ki].1.id != p.programs[kj].1.id;
        } else {
          assert p.programs[kj].1.id != p.programs[ki].1.id;
        }
      } else if ni == name {
        var kj :| 0 <= kj < |p.programs| && p.programs[kj] == programs[j];
        assert programs[j].1.id in gl.programs;
      } else {
        var ki :| 0 <= ki < |p.programs| && p.programs[ki] == programs[i];
        assert programs[i].1.id in gl.programs;
      }
    }
  }

  /**
   * `Dispatch(shaderName, x, y, z)`: with a built program, one dispatch of
   * `(x, y, z)` work groups followed by one shader-storage barrier; without
   * one, nothing is submitted.
   */
  function Dispatch(p: Pipeline, gl: GL, name: string, x: uint32, y: uint32, z: uint32): (r: GL)
    ensures name !in Keys(p.programs) ==> r == gl
    ensures name in Keys(p.programs) ==>
      && r.events == gl.events + [DispatchEvent(Get(p.programs, name).value.id, x, y, z),
                                  BarrierEvent(ShaderStorageBarrierBit)]
      && r.(events := gl.events) == gl
  {
    match Get(p.programs, name)
    case None => gl
    case Some(program) =>
      MemoryBarrier(DispatchCompute(gl, program.id, x, y, z), ShaderStorageBarrierBit)
  }

  /**
   * `SetUniformImpl(shaderName, uniformName, setter)` with the setter for value
   * `v`: fails, writing nothing, when no program is built under `shaderName` or
   * `uniformName` has a negative location; otherwise writes `v` at that location.
   */
  function SetUniform(p: Pipeline, gl: GL, shaderName: string, uniformName: string, v: UniformValue)
    : (r: (bool, GL))
    ensures r.0 <==> shaderName in Keys(p.programs) &&
                     UniformLocation(gl, Get(p.programs, shaderName).value.id, uniformName) >= 0
    ensures !r.0 ==> r.1 == gl
    ensures r.0 ==>
      var pid := Get(p.programs, shaderName).value.id;
      var loc := UniformLocation(gl, pid, uniformName);
      && r.1.uniforms == gl.uniforms[(pid, loc) := v]
      && r.1.(uniforms := gl.uniforms) == gl
  {
    match Get(p.programs, shaderName)
    case None => (false, gl)
    case Some(program) =>
      var loc := UniformLocation(gl, program.id, uniformName);
      if loc < 0 then (false, gl)
      else (true, SetUniformValue(gl, program.id, loc, v))
  }

  /**
   * Setting the same uniform twice leaves the context as setting only the
   * second value would: a uniform write never moves the location it targets.
   */
  lemma SetUniformLastWins(p: Pipeline, gl: GL, shaderName: string, uniformName: string,
                           v1: UniformValue, v2: UniformValue)
    ensures var first := SetUniform(p, gl, shaderName, uniformName, v1);
      SetUniform(p, first.1, shaderName, uniformName, v2) == SetUniform(p, gl, shaderName, uniformName, v2)
  {
    var first := SetUniform(p, gl, shaderName, uniformName, v1);
    if first.0 {
      var pid := Get(p.programs, shaderName).value.id;
      var loc := UniformLocation(gl, pid, uniformName);
      assert UniformLocation(first.1, pid, uniformName) == loc;
      assert gl.uniforms[(pid, loc) := v1][(pid, loc) := v2] == gl.uniforms[(pid, loc) := v2];
    }
  }

  /** The `unsigned int` overload: the value is passed on as `static_cast<int>(value)`. */
  function SetUniformUnsigned(p: Pipeline, gl: GL, shaderName: string, uniformName: string, value: uint32)
    : (r: (bool, GL))
    ensures r.0 <==> shaderName in Keys(p.programs) &&
                     UniformLocation(gl, Get(p.programs, shaderName).value.id, uniformName) >= 0
    ensures !r.0 ==> r.1 == gl
    ensures r.0 ==>
      var pid := Get(p.programs, shaderName).value.id;
      var loc := UniformLocation(gl, pid, uniformName);
      && (pid, loc) in r.1.uniforms && r.1.uniforms[(pid, loc)].IntValue?
      && var stored := r.1.uniforms[(pid, loc)].i;
      && (value < 0x8000_0000 ==> stored == value)
      && (value >= 0x8000_0000 ==> stored == value - TWO_TO_THE_32)
      && r.1.uniforms == gl.uniforms[(pid, loc) := IntValue(stored)]
      && r.1.(uniforms := gl.uniforms) == gl
  {
    SetUniform(p, gl, shaderName, uniformName, IntValue(AsSigned(value)))
  }

  /**
   * Name-level view of binding resolution: `n` is a registered name declaring
   * binding point `(t, i)`, and no lexicographically greater registered name does.
   */
  predicate GreatestDeclarer(m: seq<(string, Buffer)>, blocks: map<string, nat>, t: Target, i: nat, n: string)
  {
    && n in Keys(m)
    && Declares((n, Get(m, n).value), blocks, t, i)
    && forall k :: 0 <= k < |m| && Declares(m[k], blocks, t, i) ==> !Less(n, m[k].0)
  }

  /** No registered name declares binding point `(t, i)`. */
  predicate Undeclared(m: seq<(string, Buffer)>, blocks: map<string, nat>, t: Target, i: nat)
  {
    forall n :: n in Keys(m) ==> !Declares((n, Get(m, n).value), blocks, t, i)
  }

  /** In name order, the greatest declaring name is the last declaring entry. */
  lemma GreatestIsLast(m: seq<(string, Buffer)>, blocks: map<string, nat>, t: Target, i: nat, n: string)
    requires Sorted(m)
    requires GreatestDeclarer(m, blocks, t, i, n)
    ensures exists j :: LastDeclarer(m, blocks, t, i, j) && m[j] == (n, Get(m, n).value)
  {
    var j :| 0 <= j < |m| && m[j] == (n, Get(m, n).value);
    forall k | j < k < |m| ensures !Declares(m[k], blocks, t, i) {
      IndexOrder(m, j, k);
    }
    assert LastDeclarer(m, blocks, t, i, j);
  }

  /** The name of the last declaring entry is the greatest declaring name. */
  lemma LastIsGreatest(m: seq<(string, Buffer)>, blocks: map<string, nat>, t: Target, i: nat, j: int)
    requires Sorted(m)
    requires LastDeclarer(m, blocks, t, i, j)
    ensures GreatestDeclarer(m, blocks, t, i, m[j].0) && Get(m, m[j].0) == Some(m[j].1)
  {
    GetAt(m, j);
    forall k | 0 <= k < |m| && Declares(m[k], blocks, t, i) ensures !Less(m[j].0, m[k].0) {
      IndexOrder(m, j, k);
    }
  }

  /** With no declaring name, no entry declares. */
  lemma UndeclaredNone(m: seq<(string, Buffer)>, blocks: map<string, nat>, t: Target, i: nat)
    requires Sorted(m)
    requires Undeclared(m, blocks, t, i)
    ensures NoDeclarer(m, blocks, t, i)
  {
    forall k | 0 <= k < |m| ensures !Declares(m[k], blocks, t, i) {
      GetAt(m, k);
      assert m[k].0 in Keys(m);
    }
  }

  /** Every binding point has either a last declaring entry or none at all. */
  lemma {:induction false} DeclarerCases(m: seq<(string, Buffer)>, blocks: map<string, nat>, t: Target, i: nat)
    ensures NoDeclarer(m, blocks, t, i) || exists j :: LastDeclarer(m, blocks, t, i, j)
    decreases |m|
  {
    if |m| > 0 {
      var n := |m| - 1;
      if Declares(m[n], blocks, t, i) {
        assert LastDeclarer(m, blocks, t, i, n);
      } else {
        DeclarerCases(m[..n], blocks, t, i);
        if j :| LastDeclarer(m[..n], blocks, t, i, j) {
          assert LastDeclarer(m, blocks, t, i, j);
        } else {
          assert NoDeclarer(m, blocks, t, i);
        }
      }
    }
  }

  /**
   * After a successful `Build`, the storage-buffer slot a storage block declares
   * holds the buffer of the greatest registered name declaring it, and the
   * uniform-buffer slot a uniform block declares holds that of the greatest
   * registered UBO name declaring it: when two names share a binding index,
   * the later name in `std::map` order wins.
   */
  lemma BuildBindsGreatestDeclarer(p: Pipeline, gl: GL, be: Backend, name: string, i: nat, n: string)
    requires Live(p, gl)
    requires Build(p, gl, be, name).status == Built
    ensures var refl := be.reflect(Get(p.shaders, name).value.source);
      GreatestDeclarer(p.ssbos, refl.storageBlocks, ShaderStorageBuffer, i, n) ==>
        Slot(Build(p, gl, be, name).gl, ShaderStorageBuffer, i) == Get(p.ssbos, n).value.id
    ensures var refl := be.reflect(Get(p.shaders, name).value.source);
      GreatestDeclarer(p.ubos, refl.uniformBlocks, UniformBuffer, i, n) ==>
        Slot(Build(p, gl, be, name).gl, UniformBuffer, i) == Get(p.ubos, n).value.id
  {
    var refl := be.reflect(Get(p.shaders, name).value.source);
    if GreatestDeclarer(p.ssbos, refl.storageBlocks, ShaderStorageBuffer, i, n) {
      GreatestIsLast(p.ssbos, refl.storageBlocks, ShaderStorageBuffer, i, n);
    }
    if GreatestDeclarer(p.ubos, refl.uniformBlocks, UniformBuffer, i, n) {
      GreatestIsLast(p.ubos, refl.uniformBlocks, UniformBuffer, i, n);
    }
  }

  /**
   * After a successful `Build`, a binding point that no registered storage or
   * uniform buffer name declares holds what it held before.
   */
  lemma BuildKeepsUndeclaredSlots(p: Pipeline, gl: GL, be: Backend, name: string, t: Target, i: nat)
    requires Live(p, gl)
    requires Build(p, gl, be, name).status == Built
    requires var refl := be.reflect(Get(p.shaders, name).value.source);
      Undeclared(p.ssbos, refl.storageBlocks, t, i) && Undeclared(p.ubos, refl.uniformBlocks, t, i)
    ensures Slot(Build(p, gl, be, name).gl, t, i) == Slot(gl, t, i)
  {
    var refl := be.reflect(Get(p.shaders, name).value.source);
    UndeclaredNone(p.ssbos, refl.storageBlocks, t, i);
    UndeclaredNone(p.ubos, refl.uniformBlocks, t, i);
  }

  /**
   * Two registries that agree on every name except `x`, which is not a block at
   * all, have the same declarers: each declaring entry of `b` is one of `a`.
   */
  lemma SameDeclarersBut(a: seq<(string, Buffer)>, b: seq<(string, Buffer)>, x: string,
                         blocks: map<string, nat>, t: Target, i: nat)
    requires Sorted(a) && Sorted(b) && x !in blocks
    requires forall n :: n != x ==> Get(b, n) == Get(a, n)
    ensures NoDeclarer(a, blocks, t, i) ==> NoDeclarer(b, blocks, t, i)
    ensures forall n :: GreatestDeclarer(a, blocks, t, i, n) ==> GreatestDeclarer(b, blocks, t, i, n)
  {
    forall k | 0 <= k < |b| && Declares(b[k], blocks, t, i)
      ensures exists ka :: 0 <= ka < |a| && a[ka] == b[k]
    {
      GetAt(b, k);
      assert Get(a, b[k].0) == Some(b[k].1);
    }
  }

  /**
   * Registering a storage buffer under a name the shader does not declare as a
   * storage block changes nothing `Build` does: the outcome is the same and
   * every binding point ends up holding the same buffer.
   */
  lemma BuildIgnoresUndeclaredSSBO(p: Pipeline, gl: GL, be: Backend, name: string, x: string, s: SSBO)
    requires Live(p, gl)
    requires name in Keys(p.shaders)
    requires x !in be.reflect(Get(p.shaders, name).value.source).storageBlocks
    ensures var r1 := Build(p, gl, be, name);
      var r2 := Build(AddSSBO(p, x, s), gl, be, name);
      && r2.status == r1.status
      && forall t: Target, i: nat :: Slot(r2.gl, t, i) == Slot(r1.gl, t, i)
  {
    var r1 := Build(p, gl, be, name);
    var r2 := Build(AddSSBO(p, x, s), gl, be, name);
    if r1.status == Built {
      forall t: Target, i: nat ensures Slot(r2.gl, t, i) == Slot(r1.gl, t, i) {
        UndeclaredSSBOSlot(p, gl, be, name, x, s, t, i);
      }
    }
  }

  /** One binding point of `BuildIgnoresUndeclaredSSBO`. */
  lemma UndeclaredSSBOSlot(p: Pipeline, gl: GL, be: Backend, name: string, x: string, s: SSBO, t: Target, i: nat)
    requires Live(p, gl)
    requires Build(p, gl, be, name).status == Built
    requires x !in be.reflect(Get(p.shaders, name).value.source).storageBlocks
    ensures Slot(Build(AddSSBO(p, x, s), gl, be, name).gl, t, i) == Slot(Build(p, gl, be, name).gl, t, i)
  {
    var p2 := AddSSBO(p, x, s);
    SlotFacts(p, gl, be, name, t, i);
    SlotFacts(p2, gl, be, name, t, i);
    UndeclaredSlotCore(p, p2, x, be.reflect(Get(p.shaders, name).value.source), gl,
                       Build(p, gl, be, name).gl, Build(p2, gl, be, name).gl, t, i);
  }

  /** `UndeclaredSSBOSlot` with the two builds' binding facts given, and the builds themselves out of sight. */
  lemma UndeclaredSlotCore(p: Pipeline, p2: Pipeline, x: string, refl: Reflection, gl: GLState, g1: GLState, g2: GLState,
                           t: Target, i: nat)
    requires p2.ubos == p.ubos && x !in refl.storageBlocks
    requires forall n :: n != x ==> Get(p2.ssbos, n) == Get(p.ssbos, n)
    requires t == UniformBuffer ==> NoDeclarer(p.ssbos, refl.storageBlocks, t, i) && NoDeclarer(p2.ssbos, refl.storageBlocks, t, i)
    requires t == ShaderStorageBuffer ==> NoDeclarer(p.ubos, refl.uniformBlocks, t, i)
    requires forall j :: LastDeclarer(p.ssbos, refl.storageBlocks, t, i, j) ==> Slot(g1, t, i) == p.ssbos[j].1.id
    requires forall j :: LastDeclarer(p2.ssbos, refl.storageBlocks, t, i, j) ==> Slot(g2, t, i) == p2.ssbos[j].1.id
    requires forall j :: LastDeclarer(p.ubos, refl.uniformBlocks, t, i, j) ==> Slot(g1, t, i) == p.ubos[j].1.id
    requires forall j :: LastDeclarer(p.ubos, refl.uniformBlocks, t, i, j) ==> Slot(g2, t, i) == p.ubos[j].1.id
    requires NoDeclarer(p.ssbos, refl.storageBlocks, t, i) && NoDeclarer(p.ubos, refl.uniformBlocks, t, i) ==>
               Slot(g1, t, i) == Slot(gl, t, i)
    requires NoDeclarer(p2.ssbos, refl.storageBlocks, t, i) && NoDeclarer(p.ubos, refl.uniformBlocks, t, i) ==>
               Slot(g2, t, i) == Slot(gl, t, i)
    ensures Slot(g1, t, i) == Slot(g2, t, i)
  {
    forall n ensures Get<Buffer>(p.ssbos, n) == Get<SSBO>(p.ssbos, n) && Get<Buffer>(p2.ssbos, n) == Get<SSBO>(p2.ssbos, n) {
      GetAsBuffer(p.ssbos, n);
      GetAsBuffer(p2.ssbos, n);
    }
    var a: seq<(string, Buffer)> := p.ssbos;
    var b: seq<(string, Buffer)> := p2.ssbos;
    var u: seq<(string, Buffer)> := p.ubos;
    assert forall n :: n != x ==> Get(b, n) == Get(a, n);
    SlotsAgree(a, b, u, x, refl.storageBlocks, refl.uniformBlocks, gl, g1, g2, t, i);
  }

  /**
   * Binding resolution over storage registries `a` and `b` that differ only at
   * the undeclared name `x`, with the same uniform registry `u`, leaves every
   * binding point holding the same buffer.
   */
  lemma SlotsAgree(a: seq<(string, Buffer)>, b: seq<(string, Buffer)>, u: seq<(string, Buffer)>, x: string,
                   sb: map<string, nat>, ub: map<string, nat>, gl: GLState, g1: GLState, g2: GLState,
                   t: Target, i: nat)
    requires Sorted(a) && Sorted(b) && Sorted(u) && x !in sb
    requires forall n :: n != x ==> Get(b, n) == Get(a, n)
    requires t == UniformBuffer ==> NoDeclarer(a, sb, t, i) && NoDeclarer(b, sb, t, i)
    requires t == ShaderStorageBuffer ==> NoDeclarer(u, ub, t, i)
    requires forall j :: LastDeclarer(a, sb, t, i, j) ==> Slot(g1, t, i) == a[j].1.id
    requires forall j :: LastDeclarer(b, sb, t, i, j) ==> Slot(g2, t, i) == b[j].1.id
    requires forall j :: LastDeclarer(u, ub, t, i, j) ==> Slot(g1, t, i) == u[j].1.id && Slot(g2, t, i) == u[j].1.id
    requires NoDeclarer(a, sb, t, i) && NoDeclarer(u, ub, t, i) ==> Slot(g1, t, i) == Slot(gl, t, i)
    requires NoDeclarer(b, sb, t, i) && NoDeclarer(u, ub, t, i) ==> Slot(g2, t, i) == Slot(gl, t, i)
    ensures Slot(g1, t, i) == Slot(g2, t, i)
  {
    if t == UniformBuffer {
      DeclarerCases(u, ub, t, i);
    } else {
      SameDeclarersBut(a, b, x, sb, t, i);
      DeclarerCases(a, sb, t, i);
      if j :| LastDeclarer(a, sb, t, i, j) {
        LastIsGreatest(a, sb, t, i, j);
        GreatestIsLast(b, sb, t, i, a[j].0);
      }
    }
  }

  /** Looking a name up in a storage registry gives the same buffer whichever element type it is read at. */
  lemma {:induction false} GetAsBuffer(m: seq<(string, SSBO)>, n: string)
    ensures Get<Buffer>(m, n) == Get<SSBO>(m, n)
  {
    if |m| > 0 && m[0].0 != n {
      GetAsBuffer(m[1..], n);
    }
  }

  /** The slot facts of a successful `Build` at one binding point, each kind ruling out the other's target. */
  lemma SlotFacts(p: Pipeline, gl: GL, be: Backend, name: string, t: Target, i: nat)
    requires Live(p, gl)
    requires Build(p, gl, be, name).status == Built
    ensures var refl := be.reflect(Get(p.shaders, name).value.source);
      var g := Build(p, gl, be, name).gl;
      && (t == UniformBuffer ==> NoDeclarer(p.ssbos, refl.storageBlocks, t, i))
      && (t == ShaderStorageBuffer ==> NoDeclarer(p.ubos, refl.uniformBlocks, t, i))
      && (forall j :: LastDeclarer(p.ssbos, refl.storageBlocks, t, i, j) ==> Slot(g, t, i) == p.ssbos[j].1.id)
      && (forall j :: LastDeclarer(p.ubos, refl.uniformBlocks, t, i, j) ==> Slot(g, t, i) == p.ubos[j].1.id)
      && (NoDeclarer(p.ssbos, refl.storageBlocks, t, i) && NoDeclarer(p.ubos, refl.uniformBlocks, t, i) ==>
            Slot(g, t, i) == Slot(gl, t, i))
  {
  }

  /**
   * A build that fails leaves whatever was built under that name before in
   * place, so a later `Dispatch` runs the earlier program, or nothing when
   * there was none.
   */
  lemma FailedRebuildKeepsProgram(p: Pipeline, gl: GL, be: Backend, name: string, x: uint32, y: uint32, z: uint32)
    requires Live(p, gl)
    requires Build(p, gl, be, name).status != Built
    ensures var r := Build(p, gl, be, name);
      && Get(r.pipeline.programs, name) == Get(p.programs, name)
      && Dispatch(r.pipeline, r.gl, name, x, y, z) == Dispatch(p, gl, name, x, y, z)
    ensures name !in Keys(p.programs) ==>
      var r := Build(p, gl, be, name);
      Dispatch(r.pipeline, r.gl, name, x, y, z).events == gl.events
  {
  }

  /**
   * A dispatch after a successful build runs the freshly linked program, which
   * has the shader's reflected interface, and no program object built before.
   */
  lemma DispatchAfterBuildRunsNewProgram(p: Pipeline, gl: GL, be: Backend, name: string, x: uint32, y: uint32, z: uint32)
    requires Live(p, gl)
    requires Build(p, gl, be, name).status == Built
    ensures var r := Build(p, gl, be, name);
      var g := Dispatch(r.pipeline, r.gl, name, x, y, z);
      && |g.events| == |gl.events| + 2
      && g.events[|gl.events|].DispatchEvent?
      && var pid := g.events[|gl.events|].program;
      && pid !in gl.programs
      && pid in g.programs && g.programs[pid] == be.reflect(Get(p.shaders, name).value.source)
  {
  }
}

=== FILE: demo.dfy ===
/**
 * The two pieces of arithmetic the prefix-sum demo relies on: the CPU reference
 * scan its GPU result is compared against, and the number of 256-element work
 * groups a data set of a given size needs.
 */
module Demo {
  import opened Common

  /** Work-group width the scan shaders are written for. */
  const BLOCK_SIZE: int := 256

  /** `sizeof(uint32_t)`. */
  const UINT32_BYTES: int := 4

  const TWO_TO_THE_64: int := 0x1_0000_0000_0000_0000

  /** `a + b` on `uint32_t`: the sum modulo 2^32. */
  function AddWrap(a: uint32, b: uint32): (r: uint32)
    ensures (r - (a + b)) % TWO_TO_THE_32 == 0
    ensures a + b < TWO_TO_THE_32 ==> r == a + b
  {
    (a + b) % TWO_TO_THE_32
  }

  /** The mathematical sum of a sequence, with no wrap-around. */
  function Sum(s: seq<uint32>): int
  {
    if |s| == 0 then 0 else Sum(s[..|s| - 1]) + s[|s| - 1]
  }

  /** Reducing the running total before adding the next element does not change the sum modulo 2^32. */
  lemma ModAddLeft(a: int, b: int)
    ensures (a % TWO_TO_THE_32 + b) % TWO_TO_THE_32 == (a + b) % TWO_TO_THE_32
  {
    var m := TWO_TO_THE_32;
    assert a == (a / m) * m + a % m;
    assert a + b == (a % m + b) + (a / m) * m;
  }

  /**
   * `PrefixSumCPU(input, output)`: `output` is first resized to the input's
   * length, then every element is written, so what it held before does not
   * matter. Element `i` is the wrapped sum of the first `i + 1` inputs.
   */
  method PrefixSumCPU(input: seq<uint32>, prior: seq<uint32>) returns (output: seq<uint32>)
    ensures |output| == |input|
    ensures forall i :: 0 <= i < |input| ==> output[i] == Sum(input[..i + 1]) % TWO_TO_THE_32
    ensures |input| > 0 ==> output[0] == input[0]
    ensures forall i :: 1 <= i < |input| ==> output[i] == AddWrap(output[i - 1], input[i])
  {
    // `resize`: a prefix of what was there, padded with value-initialised zeros.
    if |prior| >= |input| {
      output := prior[..|input|];
    } else {
      output := prior + seq(|input| - |prior|, _ => 0);
    }
    if |input| == 0 {
      return;
    }
    assert input[..1] == [input[0]];
    assert input[..1][..0] == [];
    output := output[0 := input[0]];
    var i := 1;
    while i < |input|
      invariant 1 <= i <= |input|
      invariant |output| == |input|
      invariant forall k :: 0 <= k < i ==> output[k] == Sum(input[..k + 1]) % TWO_TO_THE_32
      invariant forall k :: 1 <= k < i ==> output[k] == AddWrap(output[k - 1], input[k])
    {
      assert input[..i + 1][..i] == input[..i];
      ModAddLeft(Sum(input[..i]), input[i]);
      output := output[i := AddWrap(output[i - 1], input[i])];
      i := i + 1;
    }
  }

  /** C++ `a / b` on `int`: the quotient truncated toward zero. */
  function TruncDiv(a: int, b: int): (q: int)
    requires b > 0
    ensures 0 <= a ==> q * b <= a < q * b + b
    ensures a < 0 ==> q * b - b < a <= q * b
  {
    if a >= 0 then a / b else -((-a) / b)
  }

  /**
   * `numBlocks = (dataSize + 256 - 1) / 256` in `int` arithmetic (the source
   * has undefined behaviour when `dataSize + 255` overflows `int`). For a
   * non-negative size it is the ceiling of `dataSize / 256`: the fewest
   * 256-element groups that cover the data, and none for an empty data set.
   * Truncating division makes it 0, not negative, for sizes down to -510.
   */
  function NumBlocks(dataSize: int32): (r: int32)
    requires dataSize + BLOCK_SIZE - 1 < 0x8000_0000
    ensures 0 <= dataSize ==> 0 <= r && (r - 1) * BLOCK_SIZE < dataSize <= r * BLOCK_SIZE
    ensures 1 - 2 * BLOCK_SIZE < dataSize < 0 ==> r == 0
    ensures dataSize <= 1 - 2 * BLOCK_SIZE ==> r < 0
  {
    TruncDiv(dataSize + BLOCK_SIZE - 1, BLOCK_SIZE)
  }

  /**
   * `sizeof(uint32_t) * numBlocks`: `numBlocks` converted to `std::size_t` (a
   * 64-bit unsigned type) and multiplied modulo 2^64, the byte size of the
   * block-sums buffer.
   */
  function BlockSumsBytes(dataSize: int32): (r: nat)
    requires dataSize + BLOCK_SIZE - 1 < 0x8000_0000
    ensures r < TWO_TO_THE_64
    ensures 0 <= dataSize ==> r == UINT32_BYTES * NumBlocks(dataSize) && r / UINT32_BYTES * BLOCK_SIZE >= dataSize
    ensures dataSize <= 1 - 2 * BLOCK_SIZE ==> r == TWO_TO_THE_64 + UINT32_BYTES * NumBlocks(dataSize)
  {
    (UINT32_BYTES * NumBlocks(dataSize)) % TWO_TO_THE_64
  }
}

=== FILE: gl_state.dfy ===
/**
 * An abstract OpenGL 4.5 context, reduced to the state the compute core touches:
 * buffer objects and their bytes, the indexed buffer binding points, the
 * reflected interface of every linked program, uniform values, and a log of
 * dispatch and barrier commands. Each GL entry point the core calls is a pure
 * transition on this record.
 */
module GLModel {
  import opened Common

  /** Buffer object name; 0 is "no buffer". */
  type BufferId = nat
  /** Program object name; 0 is "no program". */
  type ProgramId = nat

  /** Indexed buffer binding targets (`GL_SHADER_STORAGE_BUFFER`, `GL_UNIFORM_BUFFER`). */
  datatype Target = ShaderStorageBuffer | UniformBuffer

  /** Program interfaces holding named blocks (`GL_SHADER_STORAGE_BLOCK`, `GL_UNIFORM_BLOCK`). */
  datatype BlockKind = ShaderStorageBlock | UniformBlock
  {
    /** The binding-point space a block of this kind reads its buffer from. */
    function Target(): Target
    {
      match this
      case ShaderStorageBlock => ShaderStorageBuffer
      case UniformBlock => UniformBuffer
    }
  }

  /**
   * What program introspection reports for a linked program: each declared
   * block's current binding index, and each active uniform's location.
   */
  datatype Reflection = Reflection(
    storageBlocks: map<string, nat>,
    uniformBlocks: map<string, nat>,
    uniformLocations: map<string, int>)
  {
    function Blocks(kind: BlockKind): map<string, nat>
    {
      match kind
      case ShaderStorageBlock => storageBlocks
      case UniformBlock => uniformBlocks
    }

    /** `glShaderStorageBlockBinding` / `glUniformBlockBinding` on a declared block. */
    function WithBinding(kind: BlockKind, name: string, binding: nat): Reflection
    {
      match kind
      case ShaderStorageBlock => this.(storageBlocks := storageBlocks[name := binding])
      case UniformBlock => this.(uniformBlocks := uniformBlocks[name := binding])
    }
  }

  /** A 32-bit float, kept as its bit pattern: uniform payloads are never interpreted. */
  type Float = bv32

  /** The sixteen entries of a `QMatrix4x4`. */
  type Mat4 = s: seq<Float> | |s| == 16 witness seq(16, _ => 0 as Float)

  /** The closed set of uniform value kinds the parameter setter accepts. */
  datatype UniformValue =
    | IntValue(i: int32)
    | FloatValue(f: Float)
    | Vec2Value(x: Float, y: Float)
    | Vec3Value(x: Float, y: Float, z: Float)
    | Vec4Value(x: Float, y: Float, z: Float, w: Float)
    | Mat4Value(entries: Mat4)

  datatype Barrier = ShaderStorageBarrierBit

  /** Commands submitted to the GPU queue, in submission order. */
  datatype Event =
    | DispatchEvent(program: ProgramId, x: uint32, y: uint32, z: uint32)
    | BarrierEvent(barrier: Barrier)

  /** Buffer bytes; `None` marks a byte whose value GL leaves undefined. */
  type Contents = seq<Option<byte>>

  datatype GLState = GLState(
    buffers: map<BufferId, Contents>,
    nextBuffer: BufferId,
    bindings: map<(Target, nat), BufferId>,
    programs: map<ProgramId, Reflection>,
    nextProgram: ProgramId,
    uniforms: map<(ProgramId, int), UniformValue>,
    events: seq<Event>)
  {
    /** Names handed out so far are non-zero and below the next one to hand out. */
    predicate Valid()
    {
      && 0 < nextBuffer
      && 0 < nextProgram
      && (forall id :: id in buffers ==> 0 < id < nextBuffer)
      && (forall id :: id in programs ==> 0 < id < nextProgram)
    }
  }

  /** A context whose object names are allocated freshly. */
  type GL = s: GLState | s.Valid() witness GLState(map[], 1, map[], map[], 1, map[], [])

  /** The buffer bound at an indexed binding point; 0 when nothing is bound. */
  function Slot(gl: GLState, target: Target, index: nat): BufferId
  {
    if (target, index) in gl.bindings then gl.bindings[(target, index)] else 0
  }

  /** Everything but the buffer store is as before. */
  predicate SameExceptBuffers(a: GLState, b: GLState)
  {
    && a.bindings == b.bindings
    && a.programs == b.programs
    && a.nextProgram == b.nextProgram
    && a.uniforms == b.uniforms
    && a.events == b.events
  }

  /** Contents of a data store of `size` bytes, initialised from `data` or left undefined. */
  function Fill(size: nat, data: Option<seq<byte>>): (c: Contents)
    requires data.Some? ==> |data.value| >= size
  {
    if data.Some? then seq(size, i requires 0 <= i < size => Some(data.value[i]))
    else seq(size, i => None)
  }

  /** `glCreateBuffers(1, &id)`: a fresh name with an empty data store. */
  function CreateBuffer(gl: GL): (r: (BufferId, GL))
  {
    (gl.nextBuffer, gl.(buffers := gl.buffers[gl.nextBuffer := []], nextBuffer := gl.nextBuffer + 1))
  }

  /**
   * `glNamedBufferData(id, size, data, usage)`: a new data store replaces the old one.
   * Naming something that is not a buffer is a GL error and changes nothing.
   */
  function NamedBufferData(gl: GL, id: BufferId, size: nat, data: Option<seq<byte>>): (r: GL)
    requires data.Some? ==> |data.value| >= size
  {
    if id in gl.buffers then gl.(buffers := gl.buffers[id := Fill(size, data)]) else gl
  }

  /** The byte range `[offset, offset + size)` lies inside buffer `id`. */
  predicate InRange(gl: GLState, id: BufferId, offset: int, size: nat)
  {
    id in gl.buffers && 0 <= offset && offset + size <= |gl.buffers[id]|
  }

  /**
   * `glNamedBufferSubData(id, offset, size, data)`: overwrite a byte range in place.
   * A negative offset, a range past the end or a non-buffer name is a GL error and
   * changes nothing.
   */
  function NamedBufferSubData(gl: GL, id: BufferId, offset: int, size: nat, data: seq<byte>): (r: GL)
    requires |data| >= size
  {
    if InRange(gl, id, offset, size) then
      var old_ := gl.buffers[id];
      var c := seq(|old_|, j requires 0 <= j < |old_| =>
                 if offset <= j < offset + size then Some(data[j - offset]) else old_[j]);
      gl.(buffers := gl.buffers[id := c])
    else gl
  }

  /** `glBindBufferBase(target, index, id)`. */
  function BindBufferBase(gl: GL, target: Target, index: nat, id: BufferId): (r: GL)
  {
    gl.(bindings := gl.bindings[(target, index) := id])
  }

  /**
   * `glDeleteBuffers(1, &id)`: the name and its store go away, and binding points
   * that held it revert to 0.
   */
  function DeleteBuffer(gl: GL, id: BufferId): (r: GL)
  {
    var b := map s | s in gl.bindings :: if gl.bindings[s] == id then 0 else gl.bindings[s];
    gl.(buffers := gl.buffers - {id}, bindings := b)
  }

  /** A successfully linked program object with the interface introspection reports. */
  function CreateProgram(gl: GL, refl: Reflection): (r: (ProgramId, GL))
  {
    (gl.nextProgram, gl.(programs := gl.programs[gl.nextProgram := refl], nextProgram := gl.nextProgram + 1))
  }

  /** `glDeleteProgram`. */
  function DeleteProgram(gl: GL, pid: ProgramId): (r: GL)
  {
    gl.(programs := gl.programs - {pid})
  }

  /** `glShaderStorageBlockBinding` / `glUniformBlockBinding` on program `pid`. */
  function BlockBinding(gl: GL, pid: ProgramId, kind: BlockKind, name: string, binding: nat): (r: GL)
  {
    if pid in gl.programs then
      gl.(programs := gl.programs[pid := gl.programs[pid].WithBinding(kind, name, binding)])
    else gl
  }

  /** `glGetUniformLocation`: -1 for a name that is not an active uniform. */
  function UniformLocation(gl: GLState, pid: ProgramId, name: string): int
  {
    if pid in gl.programs && name in gl.programs[pid].uniformLocations
    then gl.programs[pid].uniformLocations[name]
    else -1
  }

  /** `glProgramUniform*` at a location of program `pid`. */
  function SetUniformValue(gl: GL, pid: ProgramId, location: int, v: UniformValue): (r: GL)
  {
    gl.(uniforms := gl.uniforms[(pid, location) := v])
  }

  /** `glDispatchCompute(x, y, z)` with `pid` current. */
  function DispatchCompute(gl: GL, pid: ProgramId, x: uint32, y: uint32, z: uint32): (r: GL)
  {
    gl.(events := gl.events + [DispatchEvent(pid, x, y, z)])
  }

  /** `glMemoryBarrier(bits)`. */
  function MemoryBarrier(gl: GL, bits: Barrier): (r: GL)
  {
    gl.(events := gl.events + [BarrierEvent(bits)])
  }
}

=== FILE: ordered_map.dfy ===
/**
 * `std::map<std::string, V>` as a sorted association list.
 *
 * The source iterates its name-keyed maps with range-for, which visits keys
 * in ascending `std::string` order; keeping that order explicit is what lets
 * the binding resolver's "last writer wins" behaviour be stated. Dafny orders
 * `char` by code point, which agrees with the unsigned byte order
 * `std::char_traits<char>` uses on UTF-8 text.
 */
module OrderedMap {
  import opened Common

  /** Strict lexicographic order on strings (`std::string::operator<`). */
  predicate Less(a: string, b: string)
    decreases |a|
  {
    if |a| == 0 then |b| != 0
    else if |b| == 0 then false
    else if a[0] != b[0] then a[0] < b[0]
    else Less(a[1..], b[1..])
  }

  lemma {:induction false} LessIrreflexive(a: string)
    ensures !Less(a, a)
    decreases |a|
  {
    if |a| > 0 {
      LessIrreflexive(a[1..]);
    }
  }

  lemma {:induction false} LessTransitive(a: string, b: string, c: string)
    requires Less(a, b) && Less(b, c)
    ensures Less(a, c)
    decreases |a|
  {
    if |a| > 0 && a[0] == b[0] && b[0] == c[0] {
      LessTransitive(a[1..], b[1..], c[1..]);
    }
  }

  lemma {:induction false} LessTotal(a: string, b: string)
    requires a != b
    ensures Less(a, b) || Less(b, a)
    decreases |a|
  {
    if |a| > 0 && |b| > 0 && a[0] == b[0] {
      assert a == [a[0]] + a[1..] && b == [b[0]] + b[1..];
      LessTotal(a[1..], b[1..]);
    }
  }

  lemma LessAsymmetric(a: string, b: string)
    requires Less(a, b)
    ensures !Less(b, a)
  {
    if Less(b, a) {
      LessTransitive(a, b, a);
      LessIrreflexive(a);
    }
  }

  /** Keys strictly increase along the list: no duplicates, ascending order. */
  predicate Sorted<V>(m: seq<(string, V)>)
  {
    forall i, j :: 0 <= i < j < |m| ==> Less(m[i].0, m[j].0)
  }

  type OrdMap<V> = m: seq<(string, V)> | Sorted(m) witness []

  function Keys<V>(m: seq<(string, V)>): set<string>
  {
    set i | 0 <= i < |m| :: m[i].0
  }

  /** `x` is below every key of `m`. */
  predicate Above<V>(x: string, m: seq<(string, V)>)
  {
    forall i :: 0 <= i < |m| ==> Less(x, m[i].0)
  }

  /** `find`: the value stored under `k`, `None` when `k` is absent. */
  function Get<V>(m: seq<(string, V)>, k: string): (r: Option<V>)
    ensures r.None? <==> k !in Keys(m)
    ensures r.Some? ==> (k, r.value) in m
  {
    if |m| == 0 then None
    else if m[0].0 == k then Some(m[0].1)
    else
      var r := Get(m[1..], k);
      assert Keys(m) == {m[0].0} + Keys(m[1..]) by {
        forall y | y in Keys(m) ensures y in {m[0].0} + Keys(m[1..]) {
          var i :| 0 <= i < |m| && m[i].0 == y;
          if i > 0 {
            assert m[1..][i - 1].0 == y;
          }
        }
      }
      r
  }

  /** In a sorted list every stored pair is what `find` returns for its key. */
  lemma {:induction false} GetAt<V>(m: OrdMap<V>, i: nat)
    requires i < |m|
    ensures Get(m, m[i].0) == Some(m[i].1)
  {
    if i > 0 {
      LessIrreflexive(m[i].0);
      assert m[0].0 != m[i].0;
      var tail: OrdMap<V> := m[1..];
      GetAt(tail, i - 1);
    }
  }

  /** In a sorted list, position order is key order. */
  lemma IndexOrder<V>(m: OrdMap<V>, i: nat, j: nat)
    requires i < |m| && j < |m|
    ensures i < j <==> Less(m[i].0, m[j].0)
  {
    if j < i {
      LessAsymmetric(m[j].0, m[i].0);
    } else if i == j {
      LessIrreflexive(m[i].0);
    }
  }

  /** Looking up in a list with one pair in front. */
  lemma GetCons<V>(p: (string, V), m: seq<(string, V)>)
    ensures forall j :: Get([p] + m, j) == if p.0 == j then Some(p.1) else Get(m, j)
  {
    assert ([p] + m)[1..] == m;
  }

  /** A pair whose key is below a sorted list can be put in front of it. */
  lemma SortedCons<V>(p: (string, V), m: OrdMap<V>)
    requires Above(p.0, m)
    ensures Sorted([p] + m)
  {
    var r := [p] + m;
    forall i, j | 0 <= i < j < |r| ensures Less(r[i].0, r[j].0) {
      if i > 0 {
        assert r[i] == m[i - 1] && r[j] == m[j - 1];
      } else {
        assert r[j] == m[j - 1];
      }
    }
  }

  /** `m[k] = v`: insert or overwrite exactly the entry for `k`, keeping key order. */
  function Put<V>(m: OrdMap<V>, k: string, v: V): (r: OrdMap<V>)
    ensures Get(r, k) == Some(v)
    ensures forall j :: j != k ==> Get(r, j) == Get(m, j)
    ensures forall x :: Above(x, m) && Less(x, k) ==> Above(x, r)
    decreases |m|
  {
    if |m| == 0 then [(k, v)]
    else
      var tail: OrdMap<V> := m[1..];
      assert m == [m[0]] + tail;
      GetCons(m[0], tail);
      assert Above(m[0].0, tail);
      if m[0].0 == k then
        SortedCons((k, v), tail);
        GetCons((k, v), tail);
        [(k, v)] + tail
      else if Less(k, m[0].0) then
        assert Above(k, m) by {
          forall i | 0 < i < |m| ensures Less(k, m[i].0) {
            LessTransitive(k, m[0].0, m[i].0);
          }
        }
        SortedCons((k, v), m);
        GetCons((k, v), m);
        [(k, v)] + m
      else
        LessTotal(k, m[0].0);
        var rest := Put(tail, k, v);
        SortedCons(m[0], rest);
        GetCons(m[0], rest);
        [m[0]] + rest
  }

  /** The last pair of a sorted list carries its greatest key, present nowhere before it. */
  lemma SplitLast<V>(m: OrdMap<V>)
    requires |m| > 0
    ensures Sorted(m[..|m| - 1])
    ensures forall i :: 0 <= i < |m| - 1 ==> m[i].0 != m[|m| - 1].0
    ensures m[|m| - 1].0 !in Keys(m[..|m| - 1])
    ensures Keys(m) == Keys(m[..|m| - 1]) + {m[|m| - 1].0}
  {
    var n := |m| - 1;
    forall i | 0 <= i < n ensures m[i].0 != m[n].0 {
      LessIrreflexive(m[n].0);
    }
    assert forall i :: 0 <= i < n ==> m[..n][i] == m[i];
  }

  /**
   * Range-for over `es` doing `m[name] = f(name, value)`: every key of `es`
   * ends up holding its own image, every other key keeps its entry.
   */
  function PutAll<X, V>(m: OrdMap<V>, es: OrdMap<X>, f: (string, X) -> V): (r: OrdMap<V>)
    ensures forall n :: n !in Keys(es) ==> Get(r, n) == Get(m, n)
    ensures forall i :: 0 <= i < |es| ==> Get(r, es[i].0) == Some(f(es[i].0, es[i].1))
    decreases |es|
  {
    if |es| == 0 then m
    else
      SplitLast(es);
      var init: OrdMap<X> := es[..|es| - 1];
      var last := es[|es| - 1];
      var r := PutAll(m, init, f);
      assert forall i :: 0 <= i < |init| ==> init[i] == es[i];
      Put(r, last.0, f(last.0, last.1))
  }
}

=== FILE: resource_manager.dfy ===
/**
 * `ResourceManager`: three independent name-keyed collections (shaders,
 * storage buffers, uniform buffers) with bulk creation, lookup and release.
 */
module ResourceManager {
  import opened Common
  import opened OrderedMap
  import opened GLModel
  import opened BufferObject

  /** `ComputeShader`: a path and the text read from it. */
  datatype Shader = Shader(path: string, source: string)

  /**
   * The file system as seen when a shader is constructed: the text at a path,
   * or `None` when the file cannot be opened.
   */
  type FileSystem = string -> Option<string>

  /**
   * `ComputeShader(filePath)`: the shader remembers its path and holds the
   * whole file, or no text at all when the file cannot be opened.
   */
  function LoadShader(path: string, fs: FileSystem): (s: Shader)
    ensures s.path == path
    ensures fs(path).Some? ==> s.source == fs(path).value
    ensures fs(path).None? ==> s.source == ""
  {
    match fs(path)
    case None => Shader(path, "")
    case Some(text) => Shader(path, text)
  }

  datatype Registry = Registry(shaders: OrdMap<Shader>, ssbos: OrdMap<SSBO>, ubos: OrdMap<UBO>)

  /** `ResourceManager()`: all three collections empty, so every lookup fails. */
  function NewRegistry(): (r: Registry)
    ensures forall n :: GetShader(r, n).None? && GetSSBO(r, n).None? && GetUBO(r, n).None?
  {
    Registry([], [], [])
  }

  /** Buffers the context held before keep their names and bytes. */
  ghost predicate KeepsBuffers(a: GLState, b: GLState)
  {
    forall k :: k in a.buffers ==> k in b.buffers && b.buffers[k] == a.buffers[k]
  }

  /** `LoadShaders(shaderFiles)`: each name now holds the shader read from its path. */
  function LoadShaders(reg: Registry, files: OrdMap<string>, fs: FileSystem): (r: Registry)
    ensures r.ssbos == reg.ssbos && r.ubos == reg.ubos
    ensures forall i :: 0 <= i < |files| ==>
              Get(r.shaders, files[i].0) == Some(LoadShader(files[i].1, fs))
    ensures forall n :: n !in Keys(files) ==> Get(r.shaders, n) == Get(reg.shaders, n)
  {
    reg.(shaders := PutAll(reg.shaders, files, (name, path) => LoadShader(path, fs)))
  }

  /** `AddExternalSSBOs(externalSSBOs)`: each name now holds a non-owning view of its GL name. */
  function AddExternalSSBOs(reg: Registry, external: OrdMap<BufferId>): (r: Registry)
    ensures r.shaders == reg.shaders && r.ubos == reg.ubos
    ensures forall i :: 0 <= i < |external| ==>
              Get(r.ssbos, external[i].0) == Some(Buffer(ShaderStorageBuffer, external[i].1, external[i].0, false))
    ensures forall n :: n !in Keys(external) ==> Get(r.ssbos, n) == Get(reg.ssbos, n)
  {
    reg.(ssbos := PutAll(reg.ssbos, external, (name, id) => ExternalSSBO(name, id)))
  }

  /** `std::make_shared<SSBO>(name)` followed by `Create(size, nullptr, usage)`. */
  function MakeSSBO(name: string, size: nat, gl: GL): (r: (SSBO, GL))
    ensures r.0.owns && r.0.name == name
    ensures r.0.id !in gl.buffers && Holds(r.1, r.0.id, size, None)
    ensures OthersUnchanged(gl, r.1, r.0.id) && SameExceptBuffers(gl, r.1)
    ensures gl.nextBuffer <= r.0.id < r.1.nextBuffer
  {
    var (b, gl1) := NewSSBO(name, gl);
    (b, Create(b, size, None, gl1))
  }

  /** A fresh owned buffer of `size` undefined bytes, named between `gl`'s and `gl'`'s counters. */
  ghost predicate NewOwned(b: Buffer, size: nat, gl: GLState, gl': GLState)
  {
    && b.owns
    && b.id !in gl.buffers && gl.nextBuffer <= b.id < gl'.nextBuffer
    && Holds(gl', b.id, size, None)
  }

  /** `CreateSSBOs(ssboSizes, usage)`: one owned storage buffer per entry, in key order. */
  function CreateSSBOs(reg: Registry, sizes: OrdMap<nat>, gl: GL): (r: (Registry, GL))
    ensures r.0.shaders == reg.shaders && r.0.ubos == reg.ubos
    ensures KeepsBuffers(gl, r.1) && SameExceptBuffers(gl, r.1) && gl.nextBuffer <= r.1.nextBuffer
    decreases |sizes|
  {
    if |sizes| == 0 then (reg, gl)
    else
      var init: OrdMap<nat> := sizes[..|sizes| - 1];
      var (name, size) := sizes[|sizes| - 1];
      var (reg1, gl1) := CreateSSBOs(reg, init, gl);
      var (b, gl2) := MakeSSBO(name, size, gl1);
      (reg1.(ssbos := Put(reg1.ssbos, name, b)), gl2)
  }

  /** Names not listed in `sizes` hold the same entry in `after` as in `before`. */
  ghost predicate KeepsUnlisted<V>(before: OrdMap<V>, after: OrdMap<V>, sizes: OrdMap<nat>)
  {
    forall n :: n !in Keys(sizes) ==> Get(after, n) == Get(before, n)
  }

  /** Storing under the greatest listed name keeps every unlisted name's entry. */
  lemma KeepsUnlistedStep<V>(m0: OrdMap<V>, m1: OrdMap<V>, sizes: OrdMap<nat>, v: V)
    requires |sizes| > 0
    requires KeepsUnlisted(m0, m1, sizes[..|sizes| - 1])
    ensures KeepsUnlisted(m0, Put(m1, sizes[|sizes| - 1].0, v), sizes)
  {
    SplitLast(sizes);
  }

  /** Storing under the greatest listed name leaves every other listed name's entry alone. */
  lemma PutLast<V>(m1: OrdMap<V>, sizes: OrdMap<nat>, v: V)
    requires |sizes| > 0
    ensures Get(Put(m1, sizes[|sizes| - 1].0, v), sizes[|sizes| - 1].0) == Some(v)
    ensures forall i :: 0 <= i < |sizes| - 1 ==>
              Get(Put(m1, sizes[|sizes| - 1].0, v), sizes[i].0) == Get(m1, sizes[i].0)
  {
    SplitLast(sizes);
  }

  /** A fresh buffer stays fresh while later calls only add buffers. */
  lemma NewOwnedKept(c: Buffer, size: nat, gl: GLState, gl1: GLState, gl2: GLState)
    requires NewOwned(c, size, gl, gl1)
    requires KeepsBuffers(gl1, gl2) && gl1.nextBuffer <= gl2.nextBuffer
    ensures NewOwned(c, size, gl, gl2)
  {
    assert gl2.buffers[c.id] == gl1.buffers[c.id];
  }

  /**
   * Each listed name holds a fresh owned storage buffer carrying that name with its listed size of
   * undefined bytes; distinct names hold distinct GL names.
   */
  ghost predicate FreshSSBOs(after: OrdMap<SSBO>, sizes: OrdMap<nat>, gl: GLState, gl': GLState)
  {
    && (forall i :: 0 <= i < |sizes| ==>
          && Get(after, sizes[i].0).Some?
          && Get(after, sizes[i].0).value.name == sizes[i].0
          && NewOwned(Get(after, sizes[i].0).value, sizes[i].1, gl, gl'))
    && (forall i, j :: 0 <= i < j < |sizes| ==>
          Get(after, sizes[i].0).value.id != Get(after, sizes[j].0).value.id)
  }

  /**
   * One more fresh buffer under the greatest listed name keeps `FreshSSBOs`, for
   * any map `m` that agrees with `m1` on the other listed names.
   */
  lemma FreshSSBOsStep(m1: OrdMap<SSBO>, m: OrdMap<SSBO>, sizes: OrdMap<nat>, gl: GLState, gl1: GLState, b: SSBO, gl2: GLState)
    requires |sizes| > 0
    requires FreshSSBOs(m1, sizes[..|sizes| - 1], gl, gl1)
    requires KeepsBuffers(gl, gl1) && gl.nextBuffer <= gl1.nextBuffer
    requires forall i :: 0 <= i < |sizes| - 1 ==> Get(m, sizes[i].0) == Get(m1, sizes[i].0)
    requires Get(m, sizes[|sizes| - 1].0) == Some(b)
    requires b.name == sizes[|sizes| - 1].0 && NewOwned(b, sizes[|sizes| - 1].1, gl1, gl2)
    requires KeepsBuffers(gl1, gl2) && gl1.nextBuffer <= gl2.nextBuffer
    ensures FreshSSBOs(m, sizes, gl, gl2)
  {
    var n := |sizes| - 1;
    var init := sizes[..n];
    forall i | 0 <= i < |sizes|
      ensures Get(m, sizes[i].0).Some? && Get(m, sizes[i].0).value.name == sizes[i].0
      ensures NewOwned(Get(m, sizes[i].0).value, sizes[i].1, gl, gl2)
    {
      if i < n {
        assert init[i] == sizes[i];
        assert Get(m1, init[i].0).Some? && Get(m1, init[i].0).value.name == init[i].0;
        NewOwnedKept(Get(m1, sizes[i].0).value, sizes[i].1, gl, gl1, gl2);
      }
    }
    forall i, j | 0 <= i < j < |sizes|
      ensures Get(m, sizes[i].0).value.id != Get(m, sizes[j].0).value.id
    {
      assert init[i] == sizes[i];
      if j < n {
        assert init[j] == sizes[j];
      }
    }
  }

  /**
   * After `CreateSSBOs`, each listed name holds a fresh owned storage buffer
   * carrying that name with `size` undefined bytes, distinct names hold distinct
   * GL names, and unlisted names keep their entries.
   */
  lemma {:induction false} CreateSSBOsCorrect(reg: Registry, sizes: OrdMap<nat>, gl: GL)
    ensures var (reg', gl') := CreateSSBOs(reg, sizes, gl);
      KeepsUnlisted(reg.ssbos, reg'.ssbos, sizes) && FreshSSBOs(reg'.ssbos, sizes, gl, gl')
    decreases |sizes|
  {
    if |sizes| > 0 {
      var init: OrdMap<nat> := sizes[..|sizes| - 1];
      var (name, size) := sizes[|sizes| - 1];
      var (reg1, gl1) := CreateSSBOs(reg, init, gl);
      CreateSSBOsCorrect(reg, init, gl);
      var (b, gl2) := MakeSSBO(name, size, gl1);
      assert CreateSSBOs(reg, sizes, gl) == (reg1.(ssbos := Put(reg1.ssbos, name, b)), gl2);
      KeepsUnlistedStep(reg.ssbos, reg1.ssbos, sizes, b);
      PutLast(reg1.ssbos, sizes, b);
      FreshSSBOsStep(reg1.ssbos, Put(reg1.ssbos, name, b), sizes, gl, gl1, b, gl2);
    }
  }

  /** `CreateUBOs(uboSizes)`: one owned uniform buffer per entry, in key order. */
  function CreateUBOs(reg: Registry, sizes: OrdMap<nat>, gl: GL): (r: (Registry, GL))
    ensures r.0.shaders == reg.shaders && r.0.ssbos == reg.ssbos
    ensures KeepsBuffers(gl, r.1) && SameExceptBuffers(gl, r.1) && gl.nextBuffer <= r.1.nextBuffer
    decreases |sizes|
  {
    if |sizes| == 0 then (reg, gl)
    else
      var init: OrdMap<nat> := sizes[..|sizes| - 1];
      var (name, size) := sizes[|sizes| - 1];
      var (reg1, gl1) := CreateUBOs(reg, init, gl);
      var (b, gl2) := NewUBO(size, gl1);
      (reg1.(ubos := Put(reg1.ubos, name, b)), gl2)
  }

  /**
   * Each listed name holds a fresh owned uniform buffer named "UBO" with its listed size of
   * undefined bytes; distinct names hold distinct GL names.
   */
  ghost predicate FreshUBOs(after: OrdMap<UBO>, sizes: OrdMap<nat>, gl: GLState, gl': GLState)
  {
    && (forall i :: 0 <= i < |sizes| ==>
          && Get(after, sizes[i].0).Some?
          && Get(after, sizes[i].0).value.name == UBO_NAME
          && NewOwned(Get(after, sizes[i].0).value, sizes[i].1, gl, gl'))
    && (forall i, j :: 0 <= i < j < |sizes| ==>
          Get(after, sizes[i].0).value.id != Get(after, sizes[j].0).value.id)
  }

  /**
   * One more fresh buffer under the greatest listed name keeps `FreshUBOs`, for
   * any map `m` that agrees with `m1` on the other listed names.
   */
  lemma FreshUBOsStep(m1: OrdMap<UBO>, m: OrdMap<UBO>, sizes: OrdMap<nat>, gl: GLState, gl1: GLState, b: UBO, gl2: GLState)
    requires |sizes| > 0
    requires FreshUBOs(m1, sizes[..|sizes| - 1], gl, gl1)
    requires KeepsBuffers(gl, gl1) && gl.nextBuffer <= gl1.nextBuffer
    requires forall i :: 0 <= i < |sizes| - 1 ==> Get(m, sizes[i].0) == Get(m1, sizes[i].0)
    requires Get(m, sizes[|sizes| - 1].0) == Some(b)
    requires b.name == UBO_NAME && NewOwned(b, sizes[|sizes| - 1].1, gl1, gl2)
    requires KeepsBuffers(gl1, gl2) && gl1.nextBuffer <= gl2.nextBuffer
    ensures FreshUBOs(m, sizes, gl, gl2)
  {
    var n := |sizes| - 1;
    var init := sizes[..n];
    forall i | 0 <= i < |sizes|
      ensures Get(m, sizes[i].0).Some? && Get(m, sizes[i].0).value.name == UBO_NAME
      ensures NewOwned(Get(m, sizes[i].0).value, sizes[i].1, gl, gl2)
    {
      if i < n {
        assert init[i] == sizes[i];
        assert Get(m1, init[i].0).Some? && Get(m1, init[i].0).value.name == UBO_NAME;
        NewOwnedKept(Get(m1, sizes[i].0).value, sizes[i].1, gl, gl1, gl2);
      }
    }
    forall i, j | 0 <= i < j < |sizes|
      ensures Get(m, sizes[i].0).value.id != Get(m, sizes[j].0).value.id
    {
      assert init[i] == sizes[i];
      if j < n {
        assert init[j] == sizes[j];
      }
    }
  }

  /**
   * After `CreateUBOs`, each listed name holds a fresh owned uniform buffer
   * named "UBO" with `size` undefined bytes, distinct names hold distinct GL
   * names, and unlisted names keep their entries.
   */
  lemma {:induction false} CreateUBOsCorrect(reg: Registry, sizes: OrdMap<nat>, gl: GL)
    ensures var (reg', gl') := CreateUBOs(reg, sizes, gl);
      KeepsUnlisted(reg.ubos, reg'.ubos, sizes) && FreshUBOs(reg'.ubos, sizes, gl, gl')
    decreases |sizes|
  {
    if |sizes| > 0 {
      var init: OrdMap<nat> := sizes[..|sizes| - 1];
      var (name, size) := sizes[|sizes| - 1];
      var (reg1, gl1) := CreateUBOs(reg, init, gl);
      CreateUBOsCorrect(reg, init, gl);
      var (b, gl2) := NewUBO(size, gl1);
      assert CreateUBOs(reg, sizes, gl) == (reg1.(ubos := Put(reg1.ubos, name, b)), gl2);
      KeepsUnlistedStep(reg.ubos, reg1.ubos, sizes, b);
      PutLast(reg1.ubos, sizes, b);
      FreshUBOsStep(reg1.ubos, Put(reg1.ubos, name, b), sizes, gl, gl1, b, gl2);
    }
  }

  /**
   * `CreateSSBOWithData(name, data)`: `name` now holds a fresh owned storage
   * buffer of `sizeof(T) * data.size()` bytes holding the vector's bytes.
   * Each element is given as its `sizeof(T)`-byte object representation.
   */
  function CreateSSBOWithData(reg: Registry, name: string, elemSize: nat, elems: seq<seq<byte>>, gl: GL)
    : (r: (Registry, GL))
    requires Uniform(elems, elemSize)
    ensures r.0.shaders == reg.shaders && r.0.ubos == reg.ubos
    ensures forall n :: n != name ==> Get(r.0.ssbos, n) == Get(reg.ssbos, n)
    ensures Get(r.0.ssbos, name).Some?
    ensures var b := Get(r.0.ssbos, name).value;
      && b.owns && b.name == name && b.id !in gl.buffers
      && |Flatten(elems)| == elemSize * |elems|
      && Holds(r.1, b.id, elemSize * |elems|, Some(Flatten(elems)))
    ensures KeepsBuffers(gl, r.1) && SameExceptBuffers(gl, r.1)
  {
    FlattenLength(elems, elemSize);
    var (b, gl1) := NewSSBO(name, gl);
    var gl2 := Create(b, elemSize * |elems|, Some(Flatten(elems)), gl1);
    (reg.(ssbos := Put(reg.ssbos, name, b)), gl2)
  }

  /** Element `i` of the vector sits at bytes `[i * sizeof(T), (i + 1) * sizeof(T))` of the new buffer. */
  lemma CreateSSBOWithDataLayout(reg: Registry, name: string, elemSize: nat, elems: seq<seq<byte>>, gl: GL,
                                 i: nat, k: nat)
    requires Uniform(elems, elemSize)
    requires i < |elems| && k < elemSize
    ensures var (reg', gl') := CreateSSBOWithData(reg, name, elemSize, elems, gl);
      var id := Get(reg'.ssbos, name).value.id;
      && i * elemSize + k < |gl'.buffers[id]|
      && gl'.buffers[id][i * elemSize + k] == Some(elems[i][k])
  {
    FlattenElement(elems, elemSize, i, k);
  }

  /**
   * `UploadUBOData(name, data, offset)`: fails, changing nothing, when `name`
   * holds no UBO; otherwise writes the vector's bytes at `offset` into it.
   */
  function UploadUBOData(reg: Registry, name: string, elemSize: nat, elems: seq<seq<byte>>, offset: int, gl: GL)
    : (r: (bool, GL))
    requires Uniform(elems, elemSize)
    ensures r.0 <==> name in Keys(reg.ubos)
    ensures !r.0 ==> r.1 == gl
    ensures |Flatten(elems)| == elemSize * |elems|
    ensures r.0 ==>
      var id := Get(reg.ubos, name).value.id;
      var n := elemSize * |elems|;
      && OthersUnchanged(gl, r.1, id) && SameExceptBuffers(gl, r.1)
      && (!InRange(gl, id, offset, n) ==> r.1 == gl)
      && (InRange(gl, id, offset, n) ==>
            && id in r.1.buffers && |r.1.buffers[id]| == |gl.buffers[id]|
            && forall j :: 0 <= j < |gl.buffers[id]| ==>
                 r.1.buffers[id][j] ==
                   if offset <= j < offset + n then Some(Flatten(elems)[j - offset]) else gl.buffers[id][j])
  {
    FlattenLength(elems, elemSize);
    match Get(reg.ubos, name)
    case None => (false, gl)
    case Some(ubo) =>
      (true, UploadData(ubo, Flatten(elems), elemSize * |elems|, offset, gl))
  }

  /** `GetShader(name)`: null exactly when absent, otherwise the stored shader. */
  function GetShader(reg: Registry, name: string): (r: Option<Shader>)
    ensures r.None? <==> name !in Keys(reg.shaders)
    ensures r.Some? ==> (name, r.value) in reg.shaders
  {
    Get(reg.shaders, name)
  }

  /** `GetSSBO(name)`: null exactly when absent, otherwise the stored buffer. */
  function GetSSBO(reg: Registry, name: string): (r: Option<SSBO>)
    ensures r.None? <==> name !in Keys(reg.ssbos)
    ensures r.Some? ==> (name, r.value) in reg.ssbos
  {
    Get(reg.ssbos, name)
  }

  /** `GetUBO(name)`: null exactly when absent, otherwise the stored buffer. */
  function GetUBO(reg: Registry, name: string): (r: Option<UBO>)
    ensures r.None? <==> name !in Keys(reg.ubos)
    ensures r.Some? ==> (name, r.value) in reg.ubos
  {
    Get(reg.ubos, name)
  }

  /** `ReleaseAll()`: every lookup fails afterwards. */
  function ReleaseAll(reg: Registry): (r: Registry)
    ensures forall n :: GetShader(r, n).None? && GetSSBO(r, n).None? && GetUBO(r, n).None?
  {
    NewRegistry()
  }

  /** `~ResourceManager()`: releases everything, leaving the registry as a fresh one. */
  function Teardown(reg: Registry): (r: Registry)
    ensures r == NewRegistry()
    ensures forall n :: GetShader(r, n).None? && GetSSBO(r, n).None? && GetUBO(r, n).None?
  {
    ReleaseAll(reg)
  }

  /**
   * The three collections are independent: one name can hold a shader, a
   * storage buffer and a uniform buffer at once.
   */
  lemma SameNameAcrossCollections(name: string, path: string, ssboSize: nat, uboSize: nat,
                                  fs: FileSystem, gl: GL)
    ensures var r1 := LoadShaders(NewRegistry(), [(name, path)], fs);
      var (r2, gl2) := CreateSSBOs(r1, [(name, ssboSize)], gl);
      var (r3, gl3) := CreateUBOs(r2, [(name, uboSize)], gl2);
      && GetShader(r3, name) == Some(LoadShader(path, fs))
      && GetSSBO(r3, name).Some? && Holds(gl3, GetSSBO(r3, name).value.id, ssboSize, None)
      && GetUBO(r3, name).Some? && Holds(gl3, GetUBO(r3, name).value.id, uboSize, None)
  {
    var r1 := LoadShaders(NewRegistry(), [(name, path)], fs);
    var (r2, gl2) := CreateSSBOs(r1, [(name, ssboSize)], gl);
    var (r3, gl3) := CreateUBOs(r2, [(name, uboSize)], gl2);
    var s := GetSSBO(r2, name).value;
    assert s.id in gl2.buffers;
    assert GetSSBO(r3, name) == Some(s);
  }
}

=== FILE: shader_pipeline.dfy ===
/**
 * `ComputeShaderPipeline`: an ordered list of compute shaders that are loaded,
 * and then dispatched, one after another, stopping at the first one that fails.
 * What loading or dispatching one shader does is not part of this model: each
 * is an oracle reporting success or failure.
 */
module ShaderPipeline {
  import opened Common

  datatype Sequence<S> = Sequence(shaders: seq<S>)

  /** `ComputeShaderPipeline()`: no shaders. */
  function Empty<S>(): (p: Sequence<S>)
    ensures |p.shaders| == 0
  {
    Sequence([])
  }

  /** `addShader<T>(args...)`: the new shader runs after every shader added before it. */
  function AddShader<S>(p: Sequence<S>, s: S): (r: Sequence<S>)
    ensures |r.shaders| == |p.shaders| + 1
    ensures r.shaders[..|p.shaders|] == p.shaders
    ensures r.shaders[|p.shaders|] == s
  {
    Sequence(p.shaders + [s])
  }

  /** One `dispatch(x, y, z)` issued to a shader. */
  datatype DispatchCall<S> = DispatchCall(shader: S, x: uint32, y: uint32, z: uint32)

  /**
   * `loadAll()`: loads the shaders in order and gives up at the first that
   * fails. `attempted` is how many `load` calls were made: every shader before
   * the last attempted one loaded, and no shader after it was tried.
   */
  method LoadAll<S>(p: Sequence<S>, load: S -> bool) returns (ok: bool, attempted: nat)
    ensures ok <==> forall i :: 0 <= i < |p.shaders| ==> load(p.shaders[i])
    ensures attempted <= |p.shaders|
    ensures ok ==> attempted == |p.shaders|
    ensures !ok ==> 0 < attempted && !load(p.shaders[attempted - 1])
    ensures forall i :: 0 <= i < attempted - 1 ==> load(p.shaders[i])
  {
    attempted := 0;
    while attempted < |p.shaders|
      invariant attempted <= |p.shaders|
      invariant forall i :: 0 <= i < attempted ==> load(p.shaders[i])
    {
      var s := p.shaders[attempted];
      attempted := attempted + 1;
      if !load(s) {
        return false, attempted;
      }
    }
    return true, attempted;
  }

  /**
   * `runAll(x, y, z)`: dispatches the shaders in order, each with the same work
   * group counts, and gives up at the first dispatch that fails. `issued` lists
   * the dispatch calls made, in order.
   */
  method RunAll<S>(p: Sequence<S>, dispatch: DispatchCall<S> -> bool, x: uint32, y: uint32, z: uint32)
    returns (ok: bool, issued: seq<DispatchCall<S>>)
    ensures ok <==> forall i :: 0 <= i < |p.shaders| ==> dispatch(DispatchCall(p.shaders[i], x, y, z))
    ensures |issued| <= |p.shaders|
    ensures forall i :: 0 <= i < |issued| ==> issued[i] == DispatchCall(p.shaders[i], x, y, z)
    ensures ok ==> |issued| == |p.shaders|
    ensures !ok ==> 0 < |issued| && !dispatch(issued[|issued| - 1])
    ensures forall i :: 0 <= i < |issued| - 1 ==> dispatch(issued[i])
  {
    issued := [];
    while |issued| < |p.shaders|
      invariant |issued| <= |p.shaders|
      invariant forall i :: 0 <= i < |issued| ==> issued[i] == DispatchCall(p.shaders[i], x, y, z)
      invariant forall i :: 0 <= i < |issued| ==> dispatch(issued[i])
    {
      var call := DispatchCall(p.shaders[|issued|], x, y, z);
      issued := issued + [call];
      if !dispatch(call) {
        return false, issued;
      }
    }
    return true, issued;
  }

  /** `runAll()` with its default arguments: one work group in each dimension. */
  method RunAllDefault<S>(p: Sequence<S>, dispatch: DispatchCall<S> -> bool)
    returns (ok: bool, issued: seq<DispatchCall<S>>)
    ensures ok <==> forall i :: 0 <= i < |p.shaders| ==> dispatch(DispatchCall(p.shaders[i], 1, 1, 1))
    ensures |issued| <= |p.shaders|
    ensures forall i :: 0 <= i < |issued| ==> issued[i] == DispatchCall(p.shaders[i], 1, 1, 1)
    ensures ok ==> |issued| == |p.shaders|
    ensures !ok ==> 0 < |issued| && !dispatch(issued[|issued| - 1])
    ensures forall i :: 0 <= i < |issued| - 1 ==> dispatch(issued[i])
  {
    ok, issued := RunAll(p, dispatch, 1, 1, 1);
  }
}
